=== FILE: README.md ===
# LST product generation driver, modelled in Dafny

This project models `lst_generate_products.py`, the driver that produces
Land Surface Temperature (LST) products. The driver works as follows:

- It reads the `--xml` argument and three switches.
- It finds `~/.usgs/espa/processing.conf` and reads six options from its
  `processing` section.
- It runs seven stages in a fixed order. Five are external commands built
  by small wrappers: grid points, NARR auxiliary data, MODTRAN input,
  emissivity and the MODTRAN run. The sixth, the atmospheric-parameters
  command, is built inline in `main`. The seventh is the in-process
  `BuildLSTData` band build.
- The first stage that raises ends the run.
- After a complete run it removes temporary files and directories, unless
  `--keep-temporary-data` is given. It then removes the intermediate band
  files, unless `--keep-intermediate-data` is given.

Modules, one per file:

- `Results` (`results.dfy`): `Option` and `Result`.
- `ShellPattern` (`shell_pattern.dfy`): the filename patterns `glob.glob`
  accepts. The dialect is Python 2.7's `fnmatch`: `*`, `?`, and bracket
  expressions with `!` negation and `a-b` ranges. The module has a parser,
  a renderer and a matcher, and proves that parsing undoes rendering. It
  also gives `*`, literals and concatenation an independent reading. The
  parts of the dialect the program's own patterns do not use are stated
  too: `?` matches exactly one character (`AnyCharMatch`), a `]` right
  after `[` or `[!` is a member (`ParseLeadingClose`, `LeadingCloseMember`),
  and a `[` that nothing closes stands for itself (`ParseUnclosed`,
  `EmptyBracketIsLiteral`).
- `WorkDir` (`work_dir.dfy`): the working directory, as a map from entry
  name to kind. It covers removal of listed names that exist and removal of
  the matches of a pattern.
- `Cleanup` (`cleanup.dfy`): `cleanup_temporary_data` and
  `cleanup_intermediate_bands`. Each glob pattern the source uses is proved
  to mean a plain predicate on names. Examples: "ends in
  `_emis.img.aux.xml`", "four groups of three digits joined by `_`",
  "contains `_lst_thermal_radiance.`". Each cleanup is then stated exactly
  in those terms.
- `Config` (`config.dfy`): `get_cfg_file_path` (with `os.path.join`),
  `retrieve_cfg` and the six `ConfigParser.get` lookups.
- `Commands` (`commands.dfy`): how a `cmd` list becomes the single string
  given to `execute_cmd`. It includes the partner decoder
  (`s.split(' ')`) and the round trip.
- `StageCommands` (`stage_commands.dfy`): the six command builders.
- `Pipeline` (`pipeline.dfy`): `main`. It covers the stage order, the abort
  at the first raise, the log entries, the configuration read before any
  stage, and the retention switches.

The outside world is made into parameters:

- The environment and the configuration files, with their parsed contents,
  are values.
- `util.System.execute_cmd` and `BuildLSTData(xml).generate_data()` are
  functions. Each takes the working directory and its request, and returns
  an outcome (returned output or raised message) with the directory as it
  leaves it.
- Three names come from modules that are not part of this model:
  `GRID_POINT_HEADER_NAME`, `GRID_POINT_BINARY_NAME` and `PARAMETERS`. They
  are a parameter of the temporary cleanup.

What each stage logs, in the code:

- The five stage wrappers log the command's output, and only when it is
  non-empty. They log it in a `finally` that still sees the empty initial
  output when the command raised, so a raising wrapper logs nothing.
- The atmospheric-parameters block first logs `Calling [<command>]`. On a
  raise it logs `Failed creating atmospheric parameters and generating
  intermediate data`; otherwise it logs the non-empty output.
- The band build logs `Failed processing Land Surface Temperature` when it
  raises and nothing of its own otherwise.

## Model

| member | source | states |
|---|---|---|
| StageCommands.DetermineGridPoints | not-validated-prototype_lst/scripts/lst_generate_products.py:125-147 | the token list is the program `lst_determine_grid_points.py`, `--xml <xml>`, `--data_path <path>`, then `--debug` only when debugging; the command line is those pairs separated by single spaces |
| StageCommands.ExtractAuxiliaryNarrData | not-validated-prototype_lst/scripts/lst_generate_products.py:150-172 | tokens `lst_extract_auxiliary_narr_data.py --xml <xml> --aux_path <path> [--debug]` and the matching command line |
| StageCommands.BuildModtranInput | not-validated-prototype_lst/scripts/lst_generate_products.py:175-197 | tokens `lst_build_modtran_input.py --xml <xml> --data_path <path> [--debug]` and the matching command line |
| StageCommands.GenerateEmissivityProducts | not-validated-prototype_lst/scripts/lst_generate_products.py:200-225 | tokens `estimate_landsat_emissivity.py --xml <xml> --aster-ged-server-name <name> --aster-ged-server-path <path> [--debug]` and the matching command line |
| StageCommands.RunModtran | not-validated-prototype_lst/scripts/lst_generate_products.py:228-250 | tokens `lst_run_modtran.py --modtran_data_path <path> --process_count <n> [--debug]`, with no `--xml`, and the matching command line |
| StageCommands.AtmosphericParameters | not-validated-prototype_lst/scripts/lst_generate_products.py:376-380 | tokens `lst_atmospheric_parameters --xml <xml> [--debug]` and the matching command line |
| Commands.Tokens | not-validated-prototype_lst/scripts/lst_generate_products.py:136-141 | the `cmd` list has the program first, each flag immediately followed by its value at positions 2i+1 and 2i+2, and `--debug` last when debugging |
| Commands.DecodeTokensRoundTrip | not-validated-prototype_lst/scripts/lst_generate_products.py:136-143 | the token list determines the command: decoding it gives back program, every flag/value pair in order and the debug switch |
| Commands.DebugIsLastToken | not-validated-prototype_lst/scripts/lst_generate_products.py:140-141 | debugging is on exactly when the token count is even, and then `--debug` is the last token; when off, `--debug` appears nowhere unless a flag or value is `--debug` |
| Commands.SplitJoinWords | not-validated-prototype_lst/scripts/lst_generate_products.py:143 | `' '.join` followed by `split(' ')` gives back the words when no word contains a space |
| Commands.CommandLineRoundTrip | not-validated-prototype_lst/scripts/lst_generate_products.py:143 | the string handed to `execute_cmd`, split at spaces and decoded, is exactly the command, provided no token contains a space |
| Commands.SpaceInValueIsAmbiguous | not-validated-prototype_lst/scripts/lst_generate_products.py:143 | a value containing a space is not quoted, so two different token lists produce the same command line |
| Commands.CommandLineShape | not-validated-prototype_lst/scripts/lst_generate_products.py:136-143 | the command line is the program, then ` flag value` for every pair in order, then ` --debug` when debugging |
| Config.Join | not-validated-prototype_lst/scripts/lst_generate_products.py:93 | `os.path.join` of two parts ends in the second part; an absolute second part replaces the first; otherwise the result starts with the first part, and exactly one `/` goes between them precisely when the first part is non-empty and does not already end in `/` |
| Config.CfgFilePath | not-validated-prototype_lst/scripts/lst_generate_products.py:76-95 | fails with the HOME error exactly when `HOME` is not in the environment, otherwise gives `HOME/.usgs/espa/<filename>` |
| Config.ConfigPathShape | not-validated-prototype_lst/scripts/lst_generate_products.py:93 | for a relative file name the path is the home directory, one `/` only when it does not already end in one, `.usgs/espa/`, and the name; an absolute name is used as it is |
| Config.RetrieveCfg | not-validated-prototype_lst/scripts/lst_generate_products.py:98-122 | succeeds exactly when `HOME` is set and the resolved path is an existing file, giving that file's contents; the HOME error and the missing-file error naming the path otherwise |
| Config.Get | not-validated-prototype_lst/scripts/lst_generate_products.py:337 | a lookup succeeds exactly when the section and option exist, returning the stored value; otherwise a no-section or a no-option error, never a default |
| Config.ReadSettings | not-validated-prototype_lst/scripts/lst_generate_products.py:336-350 | all six options of `processing` are read in order; the run gets its settings exactly when all six are present, each field holding its option's value; otherwise the error is the one for the first missing option |
| Config.ResolveSettings | not-validated-prototype_lst/scripts/lst_generate_products.py:333-350 | settings resolve exactly when `HOME` is set, `processing.conf` exists under it and holds all six options; without `HOME` the error is the missing-`HOME` error, without the file it is the missing-file error naming `$HOME/.usgs/espa/processing.conf`, and otherwise the result is the six lookups of that file (each field its option's value, or the first missing option's error) |
| ShellPattern.ParseRender | not-validated-prototype_lst/scripts/lst_generate_products.py:277-278 | the text of a well-formed pattern (literals, `?`, `*`, bracket expressions with ranges or negation) parses back to the same pattern |
| ShellPattern.ParsePlain | not-validated-prototype_lst/scripts/lst_generate_products.py:291-295 | characters with no special meaning parse to literals, one per character |
| ShellPattern.StarFreeMatch | not-validated-prototype_lst/scripts/lst_generate_products.py:277-279 | a pattern without `*` matches exactly the names of its own length whose characters each match the element at the same position |
| ShellPattern.ConcatMatch | not-validated-prototype_lst/scripts/lst_generate_products.py:273 | two patterns written one after the other match exactly the names that split into a match of the first followed by a match of the second |
| ShellPattern.SuffixMatch | not-validated-prototype_lst/scripts/lst_generate_products.py:261 | `*` followed by a literal text matches exactly the names ending in that text |
| ShellPattern.InfixMatch | not-validated-prototype_lst/scripts/lst_generate_products.py:291-295 | a literal text between two `*` matches exactly the names containing that text |
| WorkDir.RemoveExisting | not-validated-prototype_lst/scripts/lst_generate_products.py:268-270 | removing each listed name if it exists leaves exactly the entries not listed, with their kinds unchanged; absent names are skipped |
| WorkDir.Glob | not-validated-prototype_lst/scripts/lst_generate_products.py:273 | the hits of a pattern are exactly the entries of the directory that the pattern matches |
| WorkDir.RemoveMatching | not-validated-prototype_lst/scripts/lst_generate_products.py:273-274 | removing every hit of a pattern leaves exactly the entries the pattern does not match, unchanged |
| WorkDir.RemoveMatchingEach | not-validated-prototype_lst/scripts/lst_generate_products.py:301-303 | removing the hits of each pattern in turn leaves exactly the entries matched by none of them |
| Cleanup.EmissivityHeaderMeaning | not-validated-prototype_lst/scripts/lst_generate_products.py:261 | the pattern `*_emis.img.aux.xml` matches exactly the names ending in `_emis.img.aux.xml` |
| Cleanup.GridDirectoryMeaning | not-validated-prototype_lst/scripts/lst_generate_products.py:277-278 | the directory pattern matches exactly the 15-character names of four groups of three ASCII digits joined by `_` |
| Cleanup.BandPatternMeaning | not-validated-prototype_lst/scripts/lst_generate_products.py:291-295 | each band pattern `*X*` matches exactly the names containing X |
| Cleanup.BandPatternsMeaning | not-validated-prototype_lst/scripts/lst_generate_products.py:298-300 | a name matches one of the five band patterns exactly when it is an intermediate band name |
| Cleanup.CleanupTemporaryData | not-validated-prototype_lst/scripts/lst_generate_products.py:253-283 | the entries left are exactly those that are none of: the six listed files, a name ending in `_emis.img.aux.xml`, a grid-point directory name, a `PARAMETERS` directory; the entries left are unchanged |
| Cleanup.CleanupIntermediateBands | not-validated-prototype_lst/scripts/lst_generate_products.py:286-303 | the entries left are exactly those containing none of `_landsat_emis.`, `_lst_atmospheric_transmittance.`, `_lst_downwelled_radiance.`, `_lst_upwelled_radiance.`, `_lst_thermal_radiance.`; the rest are unchanged |
| Cleanup.CleanupTemporaryIdempotent | not-validated-prototype_lst/scripts/lst_generate_products.py:268-283 | a second temporary cleanup changes nothing |
| Cleanup.CleanupBandsIdempotent | not-validated-prototype_lst/scripts/lst_generate_products.py:301-303 | a second band cleanup changes nothing |
| Cleanup.CleanupsCommute | not-validated-prototype_lst/scripts/lst_generate_products.py:403-407 | the order of the two cleanups does not affect the resulting directory |
| Pipeline.StageCommand | not-validated-prototype_lst/scripts/lst_generate_products.py:353-380 | every external stage except the MODTRAN run gets `--xml <xml>` as its first flag, right after the program; the MODTRAN run gets no `--xml`; each command carries the run's debug switch |
| Pipeline.StageLog | not-validated-prototype_lst/scripts/lst_generate_products.py:143-400 | (the output logging of each external stage, as at 143-147; the atmospheric block at 381-391; the band build's error at 398-400) a stage leaves at most two entries, and at most one unless it is the atmospheric-parameters block, whose first entry is its calling line; the only other info entry is the output of a returned external stage, logged, as the last entry, exactly when it is non-empty; an error is logged exactly when atmospheric parameters or the band build raise, and it is the last entry and carries that stage's failure message |
| Pipeline.RunSteps | not-validated-prototype_lst/scripts/lst_generate_products.py:353-400 | a run never makes more calls than there are steps, and one that did not stop early made one call per step |
| Pipeline.RunStepsFollowSteps | not-validated-prototype_lst/scripts/lst_generate_products.py:353-397 | each call is the step at its position: its stage and the request it was handed |
| Pipeline.RunStepsStopAtRaise | not-validated-prototype_lst/scripts/lst_generate_products.py:381-400 | every call before the last returned; the run stopped early exactly when the last call raised, and then with that stage and its message as the reason |
| Pipeline.RunStepsLog | not-validated-prototype_lst/scripts/lst_generate_products.py:143-147 | the log of the stages is each call's log entries, in the order the calls were made |
| Pipeline.RunStepsDirectories | not-validated-prototype_lst/scripts/lst_generate_products.py:353-400 | the recorded calls are what the stages did: starting from the initial directory, each call's stage, run with its request on the directory the previous stage left, gave that call's outcome and the next directory; the trace ends on the directory the last stage left |
| Pipeline.PlanCommands | not-validated-prototype_lst/scripts/lst_generate_products.py:353-380 | which builder `main` calls for each of the seven stages and with which settings: data path for grid points and MODTRAN input, auxiliary path for NARR, ASTER server name and path for emissivity, MODTRAN data path and thread count for the MODTRAN run, only the XML file for atmospheric parameters; the band build is handed the XML file name |
| Pipeline.CleanupsFor | not-validated-prototype_lst/scripts/lst_generate_products.py:403-407 | the temporary cleanup is chosen exactly when temporary data is not kept, the band cleanup exactly when intermediate data is not kept, temporary first |
| Pipeline.ApplyCleanups | not-validated-prototype_lst/scripts/lst_generate_products.py:403-407 | the entries left are those no chosen cleanup removes, unchanged |
| Pipeline.Finish | not-validated-prototype_lst/scripts/lst_generate_products.py:381-409 | the run is complete exactly when no stage raised; the temporary-data cleanup is chosen exactly when the run is complete and `--keep-temporary-data` is off, and likewise the band cleanup with `--keep-intermediate-data`; an entry of the directory the stages left survives exactly when the run aborted, or its name is neither a temporary name whose cleanup ran nor an intermediate band name whose cleanup ran, and every survivor is unchanged; the log is the opening line, the stage entries, and the closing line only on completion |
| Pipeline.Run | not-validated-prototype_lst/scripts/lst_generate_products.py:309-409 | without `--xml` nothing at all happens; a stage runs or the run completes only if the configuration resolves; every run with `--xml` logs the opening line first, a complete run logs the closing line last; cleanups run only after a complete run and then exactly the chosen ones |
| Pipeline.MissingXmlRunsNothing | not-validated-prototype_lst/scripts/lst_generate_products.py:70-71 | without `--xml` nothing is logged, no stage runs and the directory is untouched |
| Pipeline.ConfigurationBeforeStages | not-validated-prototype_lst/scripts/lst_generate_products.py:331-350 | a stage runs only if `HOME` is set, the configuration file exists and all six options are present; otherwise only the opening line is logged and the run stops with the configuration error, which is the missing-`HOME` error when `HOME` is unset, the missing-file error naming the path when the file is absent, and otherwise the error of the first of the six options, in reading order, that is missing |
| Pipeline.StagesRunInOrder | not-validated-prototype_lst/scripts/lst_generate_products.py:353-397 | the stages that ran are a prefix of the fixed order, each with its own request; a complete run ran all seven |
| Pipeline.FirstRaiseAborts | not-validated-prototype_lst/scripts/lst_generate_products.py:381-400 | the stages ran one after another, each on the directory the previous one left; a run completes exactly when all seven returned; otherwise the last stage run is the first that raised, its message is the reason, no cleanup ran and the directory is the one that stage left |
| Pipeline.CleanupFlags | not-validated-prototype_lst/scripts/lst_generate_products.py:403-407 | each cleanup ran exactly when the run completed and its keep switch was off; temporary before bands |
| Pipeline.CompleteRunDirectory | not-validated-prototype_lst/scripts/lst_generate_products.py:403-407 | with the stages chained on the directories they left, after a complete run the directory is the one the last stage left, less temporary entries unless kept and less intermediate bands unless kept, with the rest unchanged |
| Pipeline.RunLog | not-validated-prototype_lst/scripts/lst_generate_products.py:331-409 | the log is the opening line, each stage's entries in run order, and the closing line only for a complete run |

## Left out

- Command-line parsing (`argparse`, `--version`): only the outcome is modelled, as the `Args` record. A missing `--xml` is an error path.
- Logging setup, format, levels and timestamps: the log is a list of info and error entries.
- Internals of `execute_cmd` (process creation, exit status, output capture) and of `BuildLSTData`: both are function parameters returning an outcome and a new directory. `BuildLSTData`'s own log entries are not modelled.
- `ConfigParser` file parsing, interpolation, the `DEFAULT` section and option-name lower-casing: a configuration file is its parsed section/option map.
- `GRID_POINT_HEADER_NAME`, `GRID_POINT_BINARY_NAME` and `PARAMETERS` come from `lst_grid_points` and `lst_build_modtran_input`, which are not part of this model; they are a parameter.
- Cleanup.CleanupTemporaryData: a hidden entry (one whose name starts with `.`), such as `.a_emis.img.aux.xml`, is removed by the model when its name matches, and kept by the source, whose `glob.glob` never returns hidden names for these patterns (see `WorkDir.Glob` below). Removal does not depend on an entry's kind. The source's `os.unlink` raises on a directory and `shutil.rmtree` raises on a file; those raises are not modelled. `rmtree`'s recursive removal is one removal of the entry.
- Cleanup.CleanupIntermediateBands: a hidden entry such as `.x_lst_thermal_radiance.img` is removed by the model and kept by the source, for the same reason; the same kind-agnostic removal; an `os.unlink` that raises on a matching directory is not modelled.
- WorkDir.Glob: Python 2.7's `glob.glob` (through `glob1`) drops every name that starts with `.` whenever the pattern itself does not start with `.`, whatever the pattern's first element is. That filter is not modelled, nor is the order of its results. Patterns are matched against entries of the working directory only, since none of the source's patterns has a directory part.
- Reversed bracket ranges: a bracket range whose bounds are reversed makes Python's regular-expression compiler raise. The model treats it as an empty range instead. None of the source's patterns has one.
- Python 2 matches its byte-string patterns and file names byte by byte, so bracket ranges compare byte values and `?` matches one byte. The model works on characters and compares ranges by code point. The two agree on the source's patterns, which are all ASCII. POSIX character classes such as `[[:digit:]]` are not supported by Python's `fnmatch` and are not modelled.
- Errors raised by the cleanups themselves are not modelled.

=== FILE: cleanup.dfy ===
/** The two retention sweeps run after a successful product build:
    `cleanup_temporary_data` and `cleanup_intermediate_bands`
    (not-validated-prototype_lst/scripts/lst_generate_products.py:253-303).
    Each is a set subtraction on the working directory; the lemmas say which
    names go, that nothing else changes, and that a second sweep is a no-op. */
module Cleanup {
  import opened ShellPattern
  import opened WorkDir
  import opened Text

  /** Names defined by the grid-point and MODTRAN-input stages, which are not
      part of this model: `GRID_POINT_HEADER_NAME`, `GRID_POINT_BINARY_NAME`
      and the `PARAMETERS` directory list. */
  datatype ExternalNames = ExternalNames(
    gridPointHeaderName: string,
    gridPointBinaryName: string,
    parameters: seq<string>)

  const GRID_POINT_ELEVATION_NAME := "grid_elevations.txt"
  const MODTRAN_ELEVATION_NAME := "modtran_elevations.txt"
  const ATMOSPHERE_PARAMETERS_NAME := "atmospheric_parameters.txt"
  const USED_POINTS_NAME := "used_points.txt"
  const EMISSIVITY_HEADER_NAME := "*_emis.img.aux.xml"
  /** Three digit positions; the grid-point directory pattern is four of
      these joined by `_`. */
  const DIGIT_GROUP := "[0-9][0-9][0-9]"
  const GRID_DIRECTORY_PATTERN := DIGIT_GROUP + "_" + DIGIT_GROUP + "_" + DIGIT_GROUP + "_" + DIGIT_GROUP

  /** The text between the two `*` of each band pattern: the patterns are
      `*_landsat_emis.*`, `*_lst_atmospheric_transmittance.*`,
      `*_lst_downwelled_radiance.*`, `*_lst_upwelled_radiance.*` and
      `*_lst_thermal_radiance.*`. */
  const EMISSIVITY_INFIX := "_landsat_emis."
  const ATMOSPHERIC_TRANSMITTANCE_INFIX := "_lst_atmospheric_transmittance."
  const DOWNWELLED_RADIANCE_INFIX := "_lst_downwelled_radiance."
  const UPWELLED_RADIANCE_INFIX := "_lst_upwelled_radiance."
  const THERMAL_RADIANCE_INFIX := "_lst_thermal_radiance."

  const EMISSIVITY_PATTERN := "*" + EMISSIVITY_INFIX + "*"
  const ATMOSPHERIC_TRANSMITTANCE_PATTERN := "*" + ATMOSPHERIC_TRANSMITTANCE_INFIX + "*"
  const DOWNWELLED_RADIANCE_PATTERN := "*" + DOWNWELLED_RADIANCE_INFIX + "*"
  const UPWELLED_RADIANCE_PATTERN := "*" + UPWELLED_RADIANCE_INFIX + "*"
  const THERMAL_RADIANCE_PATTERN := "*" + THERMAL_RADIANCE_INFIX + "*"

  /** The exact file names the temporary cleanup removes first, in order. */
  function TemporaryFileNames(x: ExternalNames): seq<string> {
    [x.gridPointHeaderName, x.gridPointBinaryName,
     GRID_POINT_ELEVATION_NAME, MODTRAN_ELEVATION_NAME,
     ATMOSPHERE_PARAMETERS_NAME, USED_POINTS_NAME]
  }

  const BAND_PATTERNS: seq<string> :=
    [EMISSIVITY_PATTERN, ATMOSPHERIC_TRANSMITTANCE_PATTERN,
     DOWNWELLED_RADIANCE_PATTERN, UPWELLED_RADIANCE_PATTERN,
     THERMAL_RADIANCE_PATTERN]

  const BAND_INFIXES: seq<string> :=
    [EMISSIVITY_INFIX, ATMOSPHERIC_TRANSMITTANCE_INFIX,
     DOWNWELLED_RADIANCE_INFIX, UPWELLED_RADIANCE_INFIX,
     THERMAL_RADIANCE_INFIX]

  predicate IsDigit(c: char) {
    '0' <= c <= '9'
  }

  /** Four groups of three decimal digits separated by `_`, such as
      `123_456_789_012`: the per-point directories. */
  predicate IsGridDirectoryName(n: string) {
    && |n| == 15
    && forall i :: 0 <= i < 15 ==> if i % 4 == 3 then n[i] == '_' else IsDigit(n[i])
  }

  /** Whether the temporary cleanup targets an entry of this name. */
  predicate IsTemporary(x: ExternalNames, n: string) {
    || n in TemporaryFileNames(x)
    || EndsWith(n, "_emis.img.aux.xml")
    || IsGridDirectoryName(n)
    || n in x.parameters
  }

  /** Whether the band cleanup targets an entry of this name. */
  predicate IsIntermediateBand(n: string) {
    exists i :: 0 <= i < |BAND_INFIXES| && Contains(n, BAND_INFIXES[i])
  }

  // ---------------------------------------------------------------------
  // What the source's pattern texts mean

  lemma EmissivityHeaderMeaning()
    ensures forall n :: Matches(Parse(EMISSIVITY_HEADER_NAME), n) <==> EndsWith(n, "_emis.img.aux.xml")
  {
    var w := "_emis.img.aux.xml";
    assert EMISSIVITY_HEADER_NAME == "*" + w;
    ParsePlain(w, "");
    assert w + "" == w;
    assert Parse(EMISSIVITY_HEADER_NAME) == [AnyString] + Literals(w) by {
      assert EMISSIVITY_HEADER_NAME[1..] == w;
    }
    forall n
      ensures Matches(Parse(EMISSIVITY_HEADER_NAME), n) <==> EndsWith(n, w)
    {
      SuffixMatch(w, n);
    }
  }

  /** `*` + plain text + `*` parses to the infix pattern. */
  lemma InfixPatternParse(w: string)
    requires forall i :: 0 <= i < |w| ==> PlainChar(w[i])
    ensures Parse("*" + w + "*") == [AnyString] + Literals(w) + [AnyString]
  {
    var t := w + "*";
    AppendAssoc("*", w, "*");
    ParseStar(t);
    ParsePlain(w, "*");
    ParseStar("");
    assert "*" + "" == "*";
    ParseEmpty();
    var lw := Literals(w);
    assert [AnyString] + [] == [AnyString];
    AppendAssoc([AnyString], lw, [AnyString]);
  }

  lemma InfixPatternMeaning(pattern: string, w: string)
    requires pattern == "*" + w + "*"
    requires forall i :: 0 <= i < |w| ==> PlainChar(w[i])
    ensures forall n :: Matches(Parse(pattern), n) <==> Contains(n, w)
  {
    InfixPatternParse(w);
    forall n
      ensures Matches(Parse(pattern), n) <==> Contains(n, w)
    {
      InfixMatch(w, n);
    }
  }

  /** Each band pattern is its infix between two `*`. */
  lemma BandPatternShape(i: nat)
    requires i < |BAND_PATTERNS|
    ensures BAND_PATTERNS[i] == "*" + BAND_INFIXES[i] + "*"
  {
  }

  /** No band infix contains pattern syntax. */
  lemma BandInfixPlain(i: nat)
    requires i < |BAND_INFIXES|
    ensures forall k :: 0 <= k < |BAND_INFIXES[i]| ==> PlainChar(BAND_INFIXES[i][k])
  {
    if i == 0 {
      assert BAND_INFIXES[i] == EMISSIVITY_INFIX;
    } else if i == 1 {
      assert BAND_INFIXES[i] == ATMOSPHERIC_TRANSMITTANCE_INFIX;
    } else if i == 2 {
      assert BAND_INFIXES[i] == DOWNWELLED_RADIANCE_INFIX;
    } else if i == 3 {
      assert BAND_INFIXES[i] == UPWELLED_RADIANCE_INFIX;
    } else {
      assert BAND_INFIXES[i] == THERMAL_RADIANCE_INFIX;
    }
  }

  lemma BandPatternMeaning(i: nat)
    requires i < |BAND_PATTERNS|
    ensures forall n :: Matches(Parse(BAND_PATTERNS[i]), n) <==> Contains(n, BAND_INFIXES[i])
  {
    BandPatternShape(i);
    BandInfixPlain(i);
    InfixPatternMeaning(BAND_PATTERNS[i], BAND_INFIXES[i]);
  }

  const DIGIT: Elem := Bracket(false, [Range('0', '9')])

  /** The grid-directory pattern as elements: digit positions and `_` at
      every fourth position. */
  function GridDirectoryElems(): (p: Pattern)
    ensures |p| == 15
    ensures forall i :: 0 <= i < 15 ==> p[i] == if i % 4 == 3 then Literal('_') else DIGIT
  {
    seq(15, i requires 0 <= i < 15 => if i % 4 == 3 then Literal('_') else DIGIT)
  }

  /** The grid-directory elements as two groups of three digits and `_`,
      then one such group and three digits. */
  lemma GridElemsGroups()
    ensures GridDirectoryElems()
         == ([DIGIT, DIGIT, DIGIT, Literal('_')] + [DIGIT, DIGIT, DIGIT, Literal('_')])
          + ([DIGIT, DIGIT, DIGIT, Literal('_')] + [DIGIT, DIGIT, DIGIT])
  {
  }

  lemma RenderGroups()
    ensures Render([DIGIT, DIGIT, DIGIT]) == DIGIT_GROUP
    ensures Render([DIGIT, DIGIT, DIGIT, Literal('_')]) == DIGIT_GROUP + "_"
  {
    var d := [DIGIT];
    assert Render(d) == "[0-9]" by {
      assert RenderItems([Range('0', '9')]) == "0-9" by {
        assert [Range('0', '9')][1..] == [];
      }
      assert d[1..] == [];
    }
    var u := [Literal('_')];
    assert Render(u) == "_" by {
      assert u[1..] == [];
    }
    RenderConcat(d, d);
    RenderConcat(d + d, d);
    RenderConcat(d + d + d, u);
    assert d + d + d == [DIGIT, DIGIT, DIGIT];
    assert d + d + d + u == [DIGIT, DIGIT, DIGIT, Literal('_')];
  }

  lemma RenderGridDirectory()
    ensures Render(GridDirectoryElems()) == GRID_DIRECTORY_PATTERN
  {
    var g := [DIGIT, DIGIT, DIGIT];
    var gu := [DIGIT, DIGIT, DIGIT, Literal('_')];
    GridElemsGroups();
    RenderGroups();
    RenderConcat(gu, gu);
    RenderConcat(gu, g);
    RenderConcat(gu + gu, gu + g);
    GridDirectoryText();
  }

  lemma GridDirectoryText()
    ensures GRID_DIRECTORY_PATTERN
         == ((DIGIT_GROUP + "_") + (DIGIT_GROUP + "_")) + ((DIGIT_GROUP + "_") + DIGIT_GROUP)
  {
    var g, gu := DIGIT_GROUP, DIGIT_GROUP + "_";
    AppendAssoc(gu, g, "_");
    AppendAssoc(gu + g + "_", g, "_");
    AppendAssoc(gu, gu, g);
    AppendAssoc(gu + gu, gu, g);
  }

  lemma GridDirectoryParse()
    ensures Parse(GRID_DIRECTORY_PATTERN) == GridDirectoryElems()
  {
    var p := GridDirectoryElems();
    assert ElemWellFormed(DIGIT);
    assert WellFormed(p);
    RenderGridDirectory();
    ParseRender(p);
  }

  lemma GridDirectoryMeaning()
    ensures forall n :: Matches(Parse(GRID_DIRECTORY_PATTERN), n) <==> IsGridDirectoryName(n)
  {
    GridDirectoryParse();
    var p := GridDirectoryElems();
    assert StarFree(p);
    forall n
      ensures Matches(p, n) <==> IsGridDirectoryName(n)
    {
      StarFreeMatch(p, n);
      if |n| == 15 {
        forall i | 0 <= i < 15
          ensures OneMatches(p[i], n[i]) <==> if i % 4 == 3 then n[i] == '_' else IsDigit(n[i])
        {
          if i % 4 != 3 {
            assert ItemHas([Range('0', '9')][0], n[i]) <==> IsDigit(n[i]);
          }
        }
      }
    }
  }

  // ---------------------------------------------------------------------
  // The sweeps

  /** `cleanup_temporary_data`: the six exact names when present, every
      `*_emis.img.aux.xml` entry, every grid-point directory, and every
      present `PARAMETERS` entry, in that order. Absent names are skipped. */
  function CleanupTemporaryData(d: Dir, x: ExternalNames): (r: Dir)
    ensures forall n :: n in r <==> n in d && !IsTemporary(x, n)
    ensures forall n :: n in r ==> r[n] == d[n]
  {
    EmissivityHeaderMeaning();
    GridDirectoryMeaning();
    var d1 := RemoveExisting(d, TemporaryFileNames(x));
    var d2 := RemoveMatching(d1, EMISSIVITY_HEADER_NAME);
    var d3 := RemoveMatching(d2, GRID_DIRECTORY_PATTERN);
    RemoveExisting(d3, x.parameters)
  }

  /** `cleanup_intermediate_bands`: every entry matching one of the five
      band patterns. */
  function CleanupIntermediateBands(d: Dir): (r: Dir)
    ensures forall n :: n in r <==> n in d && !IsIntermediateBand(n)
    ensures forall n :: n in r ==> r[n] == d[n]
  {
    BandPatternsMeaning();
    RemoveMatchingEach(d, BAND_PATTERNS)
  }

  lemma BandPatternsMeaning()
    ensures forall n :: (exists i :: 0 <= i < |BAND_PATTERNS| && Matches(Parse(BAND_PATTERNS[i]), n))
                     <==> IsIntermediateBand(n)
  {
    forall i | 0 <= i < |BAND_PATTERNS| {
      BandPatternMeaning(i);
    }
  }

  // ---------------------------------------------------------------------
  // Properties of the sweeps

  /** A second temporary cleanup finds nothing to remove. */
  lemma CleanupTemporaryIdempotent(d: Dir, x: ExternalNames)
    ensures CleanupTemporaryData(CleanupTemporaryData(d, x), x) == CleanupTemporaryData(d, x)
  {
    var once := CleanupTemporaryData(d, x);
    var twice := CleanupTemporaryData(once, x);
    SameSurvivors(twice, once, d);
  }

  /** A second band cleanup finds nothing to remove. */
  lemma CleanupBandsIdempotent(d: Dir)
    ensures CleanupIntermediateBands(CleanupIntermediateBands(d)) == CleanupIntermediateBands(d)
  {
    var once := CleanupIntermediateBands(d);
    SameSurvivors(CleanupIntermediateBands(once), once, d);
  }

  /** The two sweeps act independently: running them in either order leaves
      the same directory. */
  lemma CleanupsCommute(d: Dir, x: ExternalNames)
    ensures CleanupIntermediateBands(CleanupTemporaryData(d, x))
         == CleanupTemporaryData(CleanupIntermediateBands(d), x)
  {
    var a := CleanupIntermediateBands(CleanupTemporaryData(d, x));
    var b := CleanupTemporaryData(CleanupIntermediateBands(d), x);
    SameSurvivors(a, b, d);
  }
}

=== FILE: commands.dfy ===
/** How a stage wrapper turns its arguments into the single string given to
    `util.System.execute_cmd`: a `cmd` list of the program name and its
    flag/value pairs, a trailing `--debug` when debugging, joined with
    single spaces (`' '.join(cmd)`). The decoder is the partner used to
    show that the string carries exactly that token list. */
module Commands {
  import opened Results
  import opened Text

  datatype Flag = Flag(name: string, value: string)

  datatype Command = Command(program: string, flags: seq<Flag>, debug: bool)

  const DEBUG_FLAG := "--debug"

  function DebugTail(debug: bool): seq<string> {
    if debug then [DEBUG_FLAG] else []
  }

  /** The flag/value pairs laid out one after the other. */
  function FlagTokens(flags: seq<Flag>): (ts: seq<string>)
    ensures |ts| == 2 * |flags|
    ensures forall i :: 0 <= i < |flags| ==> ts[2 * i] == flags[i].name && ts[2 * i + 1] == flags[i].value
  {
    if flags == [] then []
    else [flags[0].name, flags[0].value] + FlagTokens(flags[1..])
  }

  /** The `cmd` list. */
  function Tokens(c: Command): (ts: seq<string>)
    ensures |ts| == 1 + 2 * |c.flags| + |DebugTail(c.debug)|
    ensures ts[0] == c.program
    ensures forall i :: 0 <= i < |c.flags| ==> ts[2 * i + 1] == c.flags[i].name && ts[2 * i + 2] == c.flags[i].value
    ensures c.debug ==> ts[|ts| - 1] == DEBUG_FLAG
  {
    [c.program] + FlagTokens(c.flags) + DebugTail(c.debug)
  }

  /** `' '.join(words)`. */
  function JoinWords(words: seq<string>): string {
    if words == [] then ""
    else if |words| == 1 then words[0]
    else words[0] + " " + JoinWords(words[1..])
  }

  /** `s.split(' ')`: the pieces between single spaces, empty ones included. */
  function SplitWords(s: string): (words: seq<string>)
    ensures words != []
    decreases |s|
  {
    var k := IndexOf(s, ' ', 0);
    if k == |s| then [s] else [s[..k]] + SplitWords(s[k + 1..])
  }

  /** The string handed to `execute_cmd`. */
  function CommandLine(c: Command): string {
    JoinWords(Tokens(c))
  }

  predicate NoSpace(w: string) {
    forall i :: 0 <= i < |w| ==> w[i] != ' '
  }

  predicate NoSpaces(words: seq<string>) {
    forall i :: 0 <= i < |words| ==> NoSpace(words[i])
  }

  /** Pairs a flat token list back into flag/value pairs. */
  function PairUp(ts: seq<string>): (flags: seq<Flag>)
    requires |ts| % 2 == 0
    decreases |ts|
  {
    if ts == [] then [] else [Flag(ts[0], ts[1])] + PairUp(ts[2..])
  }

  /** Reads a `cmd` list back: the first token is the program; an odd number
      of tokens after it means the last one is `--debug`. */
  function DecodeTokens(ts: seq<string>): Option<Command> {
    if ts == [] then None
    else
      var rest := ts[1..];
      if |rest| % 2 == 0 then Some(Command(ts[0], PairUp(rest), false))
      else if rest[|rest| - 1] == DEBUG_FLAG then Some(Command(ts[0], PairUp(rest[..|rest| - 1]), true))
      else None
  }

  lemma {:induction false} PairUpFlagTokens(flags: seq<Flag>)
    ensures PairUp(FlagTokens(flags)) == flags
  {
    if flags != [] {
      PairUpFlagTokens(flags[1..]);
      var ts := FlagTokens(flags);
      assert ts[2..] == FlagTokens(flags[1..]);
    }
  }

  /** The token list determines the command: program, every pair in order,
      and the debug switch. */
  lemma DecodeTokensRoundTrip(c: Command)
    ensures DecodeTokens(Tokens(c)) == Some(c)
  {
    var ts := Tokens(c);
    var rest := ts[1..];
    assert rest == FlagTokens(c.flags) + DebugTail(c.debug);
    PairUpFlagTokens(c.flags);
    if c.debug {
      assert rest[..|rest| - 1] == FlagTokens(c.flags);
    } else {
      assert rest == FlagTokens(c.flags);
    }
  }

  /** Debugging is on exactly when the list has an even number of tokens,
      and then `--debug` is the last one. When it is off and no other token
      is `--debug`, the flag does not appear at all. */
  lemma DebugIsLastToken(c: Command)
    ensures c.debug <==> |Tokens(c)| % 2 == 0
    ensures c.debug ==> Tokens(c)[|Tokens(c)| - 1] == DEBUG_FLAG
    ensures !c.debug && c.program != DEBUG_FLAG
            && (forall i :: 0 <= i < |c.flags| ==> c.flags[i].name != DEBUG_FLAG && c.flags[i].value != DEBUG_FLAG)
            ==> DEBUG_FLAG !in Tokens(c)
  {
    var ts := Tokens(c);
    if !c.debug && c.program != DEBUG_FLAG
       && (forall i :: 0 <= i < |c.flags| ==> c.flags[i].name != DEBUG_FLAG && c.flags[i].value != DEBUG_FLAG) {
      forall k | 0 <= k < |ts|
        ensures ts[k] != DEBUG_FLAG
      {
        if k > 0 && k % 2 == 1 {
          var i := (k - 1) / 2;
          assert 0 <= i < |c.flags| && k == 2 * i + 1;
          assert ts[k] == c.flags[i].name;
        } else if k > 0 {
          var i := (k - 2) / 2;
          assert 0 <= i < |c.flags| && k == 2 * i + 2;
          assert ts[k] == c.flags[i].value;
        }
      }
    }
  }

  lemma SplitAtSpace(w: string, rest: string)
    requires NoSpace(w)
    ensures SplitWords(w + " " + rest) == [w] + SplitWords(rest)
  {
    var s := w + " " + rest;
    assert s[|w|] == ' ';
    assert forall i :: 0 <= i < |w| ==> s[i] == w[i];
    assert IndexOf(s, ' ', 0) == |w| by {
      IndexOfAt(s, ' ', 0, |w|);
    }
    assert s[..|w|] == w;
    assert s[|w| + 1..] == rest;
  }

  lemma SplitNoSpace(w: string)
    requires NoSpace(w)
    ensures SplitWords(w) == [w]
  {
  }

  /** Splitting the joined string at spaces gives back the words, provided
      no word contains a space. */
  lemma {:induction false} SplitJoinWords(words: seq<string>)
    requires words != [] && NoSpaces(words)
    ensures SplitWords(JoinWords(words)) == words
  {
    if |words| == 1 {
      SplitNoSpace(words[0]);
    } else {
      assert NoSpace(words[0]);
      SplitJoinWords(words[1..]);
      SplitAtSpace(words[0], JoinWords(words[1..]));
    }
  }

  /** The command line read back as `s.split(' ')` and decoded is the
      command, whenever the program name and every flag and value are free
      of spaces. */
  lemma CommandLineRoundTrip(c: Command)
    requires NoSpaces(Tokens(c))
    ensures DecodeTokens(SplitWords(CommandLine(c))) == Some(c)
  {
    SplitJoinWords(Tokens(c));
    DecodeTokensRoundTrip(c);
  }

  /** A space inside a value is not quoted, so it splits the value in two:
      two different token lists give the same command line. */
  lemma SpaceInValueIsAmbiguous()
    ensures JoinWords(["--data_path", "a b"]) == JoinWords(["--data_path", "a", "b"])
  {
    assert ["--data_path", "a b"][1..] == ["a b"];
    assert ["--data_path", "a", "b"][1..] == ["a", "b"];
    assert ["a", "b"][1..] == ["b"];
  }

  /** Each word preceded by a single space. */
  function Spaced(words: seq<string>): string {
    if words == [] then "" else " " + words[0] + Spaced(words[1..])
  }

  /** One pair as it appears on the command line: ` name value`. */
  function FlagPart(f: Flag): string {
    " " + f.name + " " + f.value
  }

  /** Each pair as ` name value`, in order. */
  function FlagText(flags: seq<Flag>): string {
    if flags == [] then "" else FlagPart(flags[0]) + FlagText(flags[1..])
  }

  lemma {:induction false} JoinCons(first: string, words: seq<string>)
    ensures JoinWords([first] + words) == first + Spaced(words)
    decreases |words|
  {
    if words != [] {
      assert ([first] + words)[1..] == words;
      JoinCons(words[0], words[1..]);
      assert [words[0]] + words[1..] == words;
    } else {
      assert [first] + words == [first];
    }
  }

  lemma {:induction false} SpacedAppend(a: seq<string>, b: seq<string>)
    ensures Spaced(a + b) == Spaced(a) + Spaced(b)
  {
    if a != [] {
      SpacedAppend(a[1..], b);
      assert (a + b)[1..] == a[1..] + b;
    } else {
      assert a + b == b;
    }
  }

  lemma {:induction false} SpacedFlagTokens(flags: seq<Flag>)
    ensures Spaced(FlagTokens(flags)) == FlagText(flags)
  {
    if flags != [] {
      SpacedFlagTokens(flags[1..]);
      var ts := FlagTokens(flags);
      assert ts == [flags[0].name] + ([flags[0].value] + FlagTokens(flags[1..]));
      assert ([flags[0].name] + ([flags[0].value] + FlagTokens(flags[1..])))[1..]
          == [flags[0].value] + FlagTokens(flags[1..]);
      assert ([flags[0].value] + FlagTokens(flags[1..]))[1..] == FlagTokens(flags[1..]);
    }
  }

  /** The command line is the program, then ` flag value` for every pair in
      order, then ` --debug` when debugging. */
  lemma CommandLineShape(c: Command)
    ensures CommandLine(c) == c.program + FlagText(c.flags) + (if c.debug then " --debug" else "")
  {
    var ts := Tokens(c);
    assert ts == [c.program] + (FlagTokens(c.flags) + DebugTail(c.debug));
    JoinCons(c.program, FlagTokens(c.flags) + DebugTail(c.debug));
    SpacedAppend(FlagTokens(c.flags), DebugTail(c.debug));
    SpacedFlagTokens(c.flags);
    if c.debug {
      assert Spaced([DEBUG_FLAG]) == " --debug" by {
        assert [DEBUG_FLAG][1..] == [];
      }
    }
  }
}

=== FILE: config.dfy ===
/** Locating and reading the processing configuration: `get_cfg_file_path`,
    `retrieve_cfg` and the six `proc_cfg.get('processing', ...)` lookups of
    `main`. The environment, the set of existing regular files and the
    parsed contents of each are values handed in, not read from a system. */
module Config {
  import opened Results
  import opened Text

  type Env = map<string, string>

  /** A parsed configuration file: section name to option name to value. */
  datatype Store = Store(sections: map<string, map<string, string>>)

  /** The regular files that exist, keyed by path, with their parsed contents. */
  type ConfigFiles = map<string, Store>

  datatype ConfigError =
    | HomeNotInEnvironment                          // "[HOME] not found in environment"
    | MissingConfigFile(path: string)               // "Missing configuration file [path]"
    | NoSection(section: string)                    // ConfigParser.NoSectionError
    | NoOption(section: string, option: string)     // ConfigParser.NoOptionError

  const PROC_CFG_FILENAME := "processing.conf"
  const PROCESSING_SECTION := "processing"

  /** The six options `main` reads, in the order it reads them. */
  const REQUIRED_OPTIONS: seq<string> :=
    ["omp_num_threads", "lst_data_path", "lst_aux_path",
     "modtran_data_path", "aster_ged_server_name", "aster_ged_server_path"]

  /** POSIX `os.path.join(a, b)`: an absolute `b` replaces `a`; otherwise a
      `/` goes between them unless `a` is empty or already ends in one. */
  function Join(a: string, b: string): (r: string)
    ensures EndsWith(r, b)
    ensures StartsWith(b, "/") ==> r == b
    ensures !StartsWith(b, "/") ==> StartsWith(r, a) && |a| + |b| <= |r| <= |a| + |b| + 1
    ensures !StartsWith(b, "/") && |r| == |a| + |b| + 1 ==> r[|a|] == '/'
    ensures !StartsWith(b, "/") ==> (|r| == |a| + |b| + 1 <==> a != "" && !EndsWith(a, "/"))
  {
    if StartsWith(b, "/") then b
    else if a == "" || EndsWith(a, "/") then a + b
    else a + "/" + b
  }

  /** `os.path.join(home, '.usgs', 'espa', filename)`. */
  function ConfigPathUnder(home: string, filename: string): string {
    Join(Join(Join(home, ".usgs"), "espa"), filename)
  }

  /** `get_cfg_file_path`: fails exactly when `HOME` is not set. */
  function CfgFilePath(env: Env, filename: string): (r: Result<string, ConfigError>)
    ensures r.Failure? <==> "HOME" !in env
    ensures r.Failure? ==> r.error == HomeNotInEnvironment
    ensures r.Success? ==> r.value == ConfigPathUnder(env["HOME"], filename)
  {
    if "HOME" !in env then Failure(HomeNotInEnvironment)
    else Success(ConfigPathUnder(env["HOME"], filename))
  }

  /** The separator `os.path.join` puts after `home`. */
  function Separator(home: string): string {
    if home == "" || EndsWith(home, "/") then "" else "/"
  }

  /** Joining a relative component inserts `Separator(a)` and nothing else. */
  lemma JoinRelative(a: string, b: string)
    requires b != [] && b[0] != '/'
    ensures Join(a, b) == a + Separator(a) + b
  {
    assert b[..1][0] == b[0];
  }

  /** A component ending in a character other than `/` leaves a result that
      does not end in `/` either. */
  lemma JoinEndsWithout(a: string, b: string)
    requires b != [] && b[0] != '/' && b[|b| - 1] != '/'
    ensures Join(a, b) != [] && !EndsWith(Join(a, b), "/")
  {
    JoinRelative(a, b);
    var r := Join(a, b);
    assert r[|r| - 1] == b[|b| - 1];
    assert r[|r| - 1..][0] == r[|r| - 1];
  }

  /** For a relative file name the resolved path is the home directory, a
      separator only when one is missing, then `.usgs/espa/` and the name;
      an absolute file name is used as it is. */
  lemma ConfigPathShape(home: string, filename: string)
    ensures !StartsWith(filename, "/") ==>
      ConfigPathUnder(home, filename) == home + Separator(home) + ".usgs" + "/" + "espa" + "/" + filename
    ensures StartsWith(filename, "/") ==> ConfigPathUnder(home, filename) == filename
  {
    var p1 := Join(home, ".usgs");
    JoinRelative(home, ".usgs");
    JoinEndsWithout(home, ".usgs");
    var p2 := Join(p1, "espa");
    JoinRelative(p1, "espa");
    assert Separator(p1) == "/";
    assert p2 == home + Separator(home) + ".usgs" + "/" + "espa";
    JoinEndsWithout(p1, "espa");
    assert Separator(p2) == "/";
    if !StartsWith(filename, "/") {
      if filename != [] {
        assert filename[0] != '/' by {
          assert filename[..1][0] == filename[0];
        }
        JoinRelative(p2, filename);
      }
    }
  }

  /** `retrieve_cfg`: the path must resolve and name an existing file. */
  function RetrieveCfg(env: Env, files: ConfigFiles, filename: string): (r: Result<Store, ConfigError>)
    ensures r.Success? <==> "HOME" in env && ConfigPathUnder(env["HOME"], filename) in files
    ensures r.Success? ==> r.value == files[ConfigPathUnder(env["HOME"], filename)]
    ensures "HOME" !in env ==> r == Failure(HomeNotInEnvironment)
    ensures "HOME" in env && ConfigPathUnder(env["HOME"], filename) !in files ==>
      r == Failure(MissingConfigFile(ConfigPathUnder(env["HOME"], filename)))
  {
    var path :- CfgFilePath(env, filename);
    if path !in files then Failure(MissingConfigFile(path))
    else Success(files[path])
  }

  predicate HasOption(store: Store, section: string, option: string) {
    section in store.sections && option in store.sections[section]
  }

  /** `ConfigParser.get(section, option)`: the stored value, or an error
      naming what is missing; never a default. */
  function Get(store: Store, section: string, option: string): (r: Result<string, ConfigError>)
    ensures r.Success? <==> HasOption(store, section, option)
    ensures r.Success? ==> r.value == store.sections[section][option]
    ensures section !in store.sections ==> r == Failure(NoSection(section))
    ensures section in store.sections && option !in store.sections[section] ==>
      r == Failure(NoOption(section, option))
  {
    if section !in store.sections then Failure(NoSection(section))
    else if option !in store.sections[section] then Failure(NoOption(section, option))
    else Success(store.sections[section][option])
  }

  /** The values `main` takes from the `processing` section. */
  datatype Settings = Settings(
    processCount: string,
    dataPath: string,
    auxPath: string,
    modtranDataPath: string,
    serverName: string,
    serverPath: string)

  /** `options[i]` is the first of `options` the store lacks. */
  predicate FirstMissingAt(store: Store, options: seq<string>, i: int) {
    && 0 <= i < |options|
    && !HasOption(store, PROCESSING_SECTION, options[i])
    && forall j :: 0 <= j < i ==> HasOption(store, PROCESSING_SECTION, options[j])
  }

  /** The six lookups of `main`, in order: the first missing option is the
      error; with all present, each field holds its option's value. */
  function ReadSettings(store: Store): (r: Result<Settings, ConfigError>)
    ensures r.Success? <==> forall i :: 0 <= i < |REQUIRED_OPTIONS| ==> HasOption(store, PROCESSING_SECTION, REQUIRED_OPTIONS[i])
    ensures r.Failure? ==> exists i ::
              FirstMissingAt(store, REQUIRED_OPTIONS, i) && r.error == Get(store, PROCESSING_SECTION, REQUIRED_OPTIONS[i]).error
    ensures r.Success? ==>
      && Get(store, PROCESSING_SECTION, "omp_num_threads") == Success(r.value.processCount)
      && Get(store, PROCESSING_SECTION, "lst_data_path") == Success(r.value.dataPath)
      && Get(store, PROCESSING_SECTION, "lst_aux_path") == Success(r.value.auxPath)
      && Get(store, PROCESSING_SECTION, "modtran_data_path") == Success(r.value.modtranDataPath)
      && Get(store, PROCESSING_SECTION, "aster_ged_server_name") == Success(r.value.serverName)
      && Get(store, PROCESSING_SECTION, "aster_ged_server_path") == Success(r.value.serverPath)
  {
    RequiredOptionsInOrder();
    var processCount :- Get(store, PROCESSING_SECTION, "omp_num_threads");
    var dataPath :- Get(store, PROCESSING_SECTION, "lst_data_path");
    var auxPath :- Get(store, PROCESSING_SECTION, "lst_aux_path");
    var modtranDataPath :- Get(store, PROCESSING_SECTION, "modtran_data_path");
    var serverName :- Get(store, PROCESSING_SECTION, "aster_ged_server_name");
    var serverPath :- Get(store, PROCESSING_SECTION, "aster_ged_server_path");
    Success(Settings(processCount, dataPath, auxPath, modtranDataPath, serverName, serverPath))
  }

  lemma RequiredOptionsInOrder()
    ensures REQUIRED_OPTIONS[0] == "omp_num_threads"
    ensures REQUIRED_OPTIONS[1] == "lst_data_path"
    ensures REQUIRED_OPTIONS[2] == "lst_aux_path"
    ensures REQUIRED_OPTIONS[3] == "modtran_data_path"
    ensures REQUIRED_OPTIONS[4] == "aster_ged_server_name"
    ensures REQUIRED_OPTIONS[5] == "aster_ged_server_path"
  {
  }

  /** `retrieve_cfg(PROC_CFG_FILENAME)` followed by the six lookups. */
  function ResolveSettings(env: Env, files: ConfigFiles): (r: Result<Settings, ConfigError>)
    ensures r.Success? <==>
      && "HOME" in env
      && ConfigPathUnder(env["HOME"], PROC_CFG_FILENAME) in files
      && forall i :: 0 <= i < |REQUIRED_OPTIONS| ==>
           HasOption(files[ConfigPathUnder(env["HOME"], PROC_CFG_FILENAME)], PROCESSING_SECTION, REQUIRED_OPTIONS[i])
    ensures "HOME" !in env ==> r == Failure(HomeNotInEnvironment)
    ensures "HOME" in env && ConfigPathUnder(env["HOME"], PROC_CFG_FILENAME) !in files ==>
              r == Failure(MissingConfigFile(ConfigPathUnder(env["HOME"], PROC_CFG_FILENAME)))
    ensures "HOME" in env && ConfigPathUnder(env["HOME"], PROC_CFG_FILENAME) in files ==>
              r == ReadSettings(files[ConfigPathUnder(env["HOME"], PROC_CFG_FILENAME)])
  {
    var store :- RetrieveCfg(env, files, PROC_CFG_FILENAME);
    ReadSettings(store)
  }
}

=== FILE: pipeline.dfy ===
/** `main` of not-validated-prototype_lst/scripts/lst_generate_products.py:
    the argument check, the configuration lookups, the seven stages in a
    fixed order with the first raising stage ending the run, the log
    entries each stage leaves, and the two optional cleanups after a
    complete run.

    What the outside world does is handed in: `execute` stands for
    `util.System.execute_cmd` and `build` for
    `build_lst_data.BuildLSTData(xml).generate_data()`. Each gets the
    working directory as it is when the stage starts and gives back the
    stage's outcome together with the directory as the stage leaves it. */
module Pipeline {
  import opened Results
  import opened Commands
  import opened WorkDir
  import Config
  import StageCommands
  import Cleanup

  datatype Stage =
    | DetermineGridPoints
    | ExtractAuxiliaryNarrData
    | BuildModtranInput
    | GenerateEmissivityProducts
    | RunModtran
    | AtmosphericParameters
    | BuildLstData

  /** The order in which `main` runs the stages. */
  const STAGE_ORDER: seq<Stage> :=
    [DetermineGridPoints, ExtractAuxiliaryNarrData, BuildModtranInput,
     GenerateEmissivityProducts, RunModtran, AtmosphericParameters, BuildLstData]

  /** A stage either returns (with the text the command printed) or raises. */
  datatype Outcome = Returned(output: string) | Raised(message: string)

  datatype Effect = Effect(outcome: Outcome, dir: Dir)

  datatype LogEntry = Info(text: string) | Error(text: string)

  const BEGIN_MESSAGE := "*** Begin LST Generate Products ***"
  const COMPLETE_MESSAGE := "*** LST Generate Products - Complete ***"
  const ATMOSPHERIC_FAILED_MESSAGE := "Failed creating atmospheric parameters and generating intermediate data"
  const LST_FAILED_MESSAGE := "Failed processing Land Surface Temperature"

  /** The parsed command line: `--xml`, `--keep-intermediate-data`,
      `--keep-temporary-data`, `--debug`. */
  datatype Args = Args(xml: Option<string>, keepIntermediate: bool, keepTemporary: bool, debug: bool)

  /** Why a run stopped early. */
  datatype Abort =
    | MissingXml                                     // "--xml must be specified on the command line"
    | ConfigAbort(error: Config.ConfigError)
    | StageAbort(stage: Stage, message: string)      // the stage's exception, re-raised

  datatype Status = Complete | Aborted(reason: Abort)

  /** One stage invocation: what it was given and how it ended. */
  datatype Call = Call(stage: Stage, request: string, outcome: Outcome)

  datatype CleanupAction = TemporaryData | IntermediateBands

  datatype Report = Report(calls: seq<Call>, log: seq<LogEntry>, status: Status,
                           cleanups: seq<CleanupAction>, dir: Dir)

  /** The stages that are external commands (all but the LST band build). */
  predicate IsCommand(s: Stage) {
    s != BuildLstData
  }

  /** The command a stage runs, built from the arguments and the settings. */
  function StageCommand(s: Stage, xml: string, st: Config.Settings, debug: bool): (c: Command)
    requires IsCommand(s)
    ensures c.debug == debug
    ensures s != RunModtran ==> |c.flags| > 0 && c.flags[0] == Flag(StageCommands.XML_FLAG, xml)
    ensures s == RunModtran ==> forall i :: 0 <= i < |c.flags| ==> c.flags[i].name != StageCommands.XML_FLAG
    ensures s != RunModtran ==> |Tokens(c)| > 2 && Tokens(c)[1] == StageCommands.XML_FLAG && Tokens(c)[2] == xml
  {
    match s
    case DetermineGridPoints => StageCommands.DetermineGridPoints(xml, st.dataPath, debug)
    case ExtractAuxiliaryNarrData => StageCommands.ExtractAuxiliaryNarrData(xml, st.auxPath, debug)
    case BuildModtranInput => StageCommands.BuildModtranInput(xml, st.dataPath, debug)
    case GenerateEmissivityProducts =>
      StageCommands.GenerateEmissivityProducts(xml, st.serverName, st.serverPath, debug)
    case RunModtran => StageCommands.RunModtran(st.modtranDataPath, st.processCount, debug)
    case AtmosphericParameters => StageCommands.AtmosphericParameters(xml, debug)
  }

  /** What a stage is handed: the command line for an external command, the
      XML file name for the LST band build. */
  function Request(s: Stage, xml: string, st: Config.Settings, debug: bool): string {
    if IsCommand(s) then CommandLine(StageCommand(s, xml, st, debug)) else xml
  }

  /** `if len(output) > 0: logger.info(output)`. */
  function OutputLog(output: string): seq<LogEntry> {
    if |output| > 0 then [Info(output)] else []
  }

  function CallingLine(request: string): LogEntry {
    Info("Calling [" + request + "]")
  }

  predicate HasError(log: seq<LogEntry>) {
    exists i :: 0 <= i < |log| && log[i].Error?
  }

  /** The log entries one stage leaves. The five wrappers log the output in
      a `finally`, which sees the empty initial output when the command
      raised; the atmospheric-parameters block first logs the command it
      calls; the LST band build logs nothing of its own on success. */
  function StageLog(s: Stage, request: string, o: Outcome): (log: seq<LogEntry>)
    ensures |log| <= 2
    ensures s != AtmosphericParameters ==> |log| <= 1
    ensures s == AtmosphericParameters ==> log != [] && log[0] == CallingLine(request)
    ensures forall i :: 0 <= i < |log| && log[i].Info? ==>
              || (i == 0 && s == AtmosphericParameters && log[i] == CallingLine(request))
              || (s != BuildLstData && o.Returned? && |o.output| > 0 && log[i] == Info(o.output))
    ensures forall i :: 0 <= i < |log| && log[i].Error? ==>
              && o.Raised?
              && (s == AtmosphericParameters ==> log[i] == Error(ATMOSPHERIC_FAILED_MESSAGE))
              && (s == BuildLstData ==> log[i] == Error(LST_FAILED_MESSAGE))
    ensures HasError(log) <==> o.Raised? && (s == AtmosphericParameters || s == BuildLstData)
    ensures o.Raised? && (s == AtmosphericParameters || s == BuildLstData) ==> log != [] && log[|log| - 1].Error?
    ensures s != BuildLstData && o.Returned? ==>
      (|o.output| > 0 <==> log != [] && log[|log| - 1] == Info(o.output))
    ensures s == BuildLstData && o.Returned? ==> log == []
  {
    match s
    case AtmosphericParameters =>
      assert |"Calling [" + request + "]"| > 0;
      var log := [CallingLine(request)] + (if o.Raised? then [Error(ATMOSPHERIC_FAILED_MESSAGE)] else OutputLog(o.output));
      assert o.Raised? ==> log[1].Error?;
      log
    case BuildLstData =>
      if o.Raised? then
        var log := [Error(LST_FAILED_MESSAGE)];
        assert log[0].Error?;
        log
      else []
    case _ =>
      if o.Raised? then [] else OutputLog(o.output)
  }

  /** The log of a sequence of calls, stage after stage. */
  function LogOf(calls: seq<Call>): seq<LogEntry> {
    if calls == [] then []
    else StageLog(calls[0].stage, calls[0].request, calls[0].outcome) + LogOf(calls[1..])
  }

  /** A stage together with what it is handed. */
  datatype Step = Step(stage: Stage, request: string)

  /** The stages of `main` in order, each with its request. */
  function Plan(xml: string, st: Config.Settings, debug: bool): (plan: seq<Step>)
    ensures |plan| == |STAGE_ORDER|
  {
    seq(|STAGE_ORDER|, i requires 0 <= i < |STAGE_ORDER| =>
      Step(STAGE_ORDER[i], Request(STAGE_ORDER[i], xml, st, debug)))
  }

  /** Unfolds `Plan` at every index, as a proof step for `PlanCommands` and
      `StagesRunInOrder`; the property itself is `PlanCommands`. */
  lemma PlanSteps(xml: string, st: Config.Settings, debug: bool)
    ensures forall i :: 0 <= i < |STAGE_ORDER| ==>
              Plan(xml, st, debug)[i] == Step(STAGE_ORDER[i], Request(STAGE_ORDER[i], xml, st, debug))
  {
  }

  /** Which builder `main` calls for each stage, and with which settings:
      the data path for the grid points and the MODTRAN input, the auxiliary
      path for the NARR data, the ASTER server name and path for the
      emissivity, the MODTRAN data path and the thread count for the MODTRAN
      run, only the XML file for the atmospheric parameters; the band build
      is handed the XML file name. */
  lemma PlanCommands(xml: string, st: Config.Settings, debug: bool)
    ensures var plan := Plan(xml, st, debug);
      && plan[0] == Step(DetermineGridPoints, CommandLine(StageCommands.DetermineGridPoints(xml, st.dataPath, debug)))
      && plan[1] == Step(ExtractAuxiliaryNarrData,
                         CommandLine(StageCommands.ExtractAuxiliaryNarrData(xml, st.auxPath, debug)))
      && plan[2] == Step(BuildModtranInput, CommandLine(StageCommands.BuildModtranInput(xml, st.dataPath, debug)))
      && plan[3] == Step(GenerateEmissivityProducts,
                         CommandLine(StageCommands.GenerateEmissivityProducts(xml, st.serverName, st.serverPath, debug)))
      && plan[4] == Step(RunModtran, CommandLine(StageCommands.RunModtran(st.modtranDataPath, st.processCount, debug)))
      && plan[5] == Step(AtmosphericParameters, CommandLine(StageCommands.AtmosphericParameters(xml, debug)))
      && plan[6] == Step(BuildLstData, xml)
  {
    PlanSteps(xml, st, debug);
    StageBuilders(xml, st, debug);
    var plan := Plan(xml, st, debug);
    assert plan[6] == Step(BuildLstData, xml);
  }

  /** The builder behind each external stage, with its arguments. */
  lemma StageBuilders(xml: string, st: Config.Settings, debug: bool)
    ensures StageCommand(DetermineGridPoints, xml, st, debug) == StageCommands.DetermineGridPoints(xml, st.dataPath, debug)
    ensures StageCommand(ExtractAuxiliaryNarrData, xml, st, debug)
         == StageCommands.ExtractAuxiliaryNarrData(xml, st.auxPath, debug)
    ensures StageCommand(BuildModtranInput, xml, st, debug) == StageCommands.BuildModtranInput(xml, st.dataPath, debug)
    ensures StageCommand(GenerateEmissivityProducts, xml, st, debug)
         == StageCommands.GenerateEmissivityProducts(xml, st.serverName, st.serverPath, debug)
    ensures StageCommand(RunModtran, xml, st, debug) == StageCommands.RunModtran(st.modtranDataPath, st.processCount, debug)
    ensures StageCommand(AtmosphericParameters, xml, st, debug) == StageCommands.AtmosphericParameters(xml, debug)
  {
  }

  /** What running a list of stages produced. */
  datatype Trace = Trace(calls: seq<Call>, log: seq<LogEntry>, abort: Option<Abort>, dir: Dir)

  /** Calls that follow the steps after the first one, preceded by a call
      for the first step, follow all the steps. */
  lemma PrependCall(steps: seq<Step>, call: Call, rest: seq<Call>)
    requires steps != [] && call.stage == steps[0].stage && call.request == steps[0].request
    requires |rest| <= |steps| - 1
    requires forall i :: 0 <= i < |rest| ==>
               rest[i].stage == steps[1..][i].stage && rest[i].request == steps[1..][i].request
    ensures forall i :: 0 <= i < |[call] + rest| ==>
              ([call] + rest)[i].stage == steps[i].stage && ([call] + rest)[i].request == steps[i].request
  {
    forall i | 0 <= i < |[call] + rest|
      ensures ([call] + rest)[i].stage == steps[i].stage && ([call] + rest)[i].request == steps[i].request
    {
      if i > 0 {
        assert ([call] + rest)[i] == rest[i - 1];
        assert steps[1..][i - 1] == steps[i];
      }
    }
  }

  /** What one step does to the directory it starts on. */
  function Perform(step: Step, execute: (Dir, string) -> Effect, build: (Dir, string) -> Effect, d: Dir): Effect {
    if IsCommand(step.stage) then execute(d, step.request) else build(d, step.request)
  }

  /** The steps run one after the other, each on the directory the previous
      one left; the first one that raises ends the list. */
  function RunSteps(steps: seq<Step>, execute: (Dir, string) -> Effect, build: (Dir, string) -> Effect,
                    d: Dir): (t: Trace)
    ensures |t.calls| <= |steps|
    ensures t.abort.None? ==> |t.calls| == |steps|
    decreases |steps|
  {
    if steps == [] then Trace([], [], None, d)
    else
      var e := Perform(steps[0], execute, build, d);
      var call := Call(steps[0].stage, steps[0].request, e.outcome);
      var log := StageLog(call.stage, call.request, call.outcome);
      if e.outcome.Raised? then
        Trace([call], log, Some(StageAbort(call.stage, e.outcome.message)), e.dir)
      else
        var rest := RunSteps(steps[1..], execute, build, e.dir);
        Trace([call] + rest.calls, log + rest.log, rest.abort, rest.dir)
  }

  /** Each call is the step at its position. */
  lemma {:induction false} RunStepsFollowSteps(steps: seq<Step>, execute: (Dir, string) -> Effect,
                                               build: (Dir, string) -> Effect, d: Dir)
    ensures var t := RunSteps(steps, execute, build, d);
      forall i :: 0 <= i < |t.calls| ==> t.calls[i].stage == steps[i].stage && t.calls[i].request == steps[i].request
    decreases |steps|
  {
    if steps != [] {
      var e := Perform(steps[0], execute, build, d);
      if e.outcome.Returned? {
        var rest := RunSteps(steps[1..], execute, build, e.dir);
        RunStepsFollowSteps(steps[1..], execute, build, e.dir);
        PrependCall(steps, Call(steps[0].stage, steps[0].request, e.outcome), rest.calls);
      }
    }
  }

  /** Every call before the last returned; the run stopped early exactly
      when the last call raised, and then with that stage and message. */
  lemma {:induction false} RunStepsStopAtRaise(steps: seq<Step>, execute: (Dir, string) -> Effect,
                                               build: (Dir, string) -> Effect, d: Dir)
    ensures var t := RunSteps(steps, execute, build, d);
      forall i :: 0 <= i < |t.calls| - 1 ==> t.calls[i].outcome.Returned?
    ensures var t := RunSteps(steps, execute, build, d);
      t.abort.None? ==> forall i :: 0 <= i < |t.calls| ==> t.calls[i].outcome.Returned?
    ensures var t := RunSteps(steps, execute, build, d);
      t.abort.Some? <==> t.calls != [] && t.calls[|t.calls| - 1].outcome.Raised?
    ensures var t := RunSteps(steps, execute, build, d);
      t.abort.Some? ==>
        t.abort.value == StageAbort(t.calls[|t.calls| - 1].stage, t.calls[|t.calls| - 1].outcome.message)
    decreases |steps|
  {
    if steps != [] {
      var t := RunSteps(steps, execute, build, d);
      var e := Perform(steps[0], execute, build, d);
      var call := Call(steps[0].stage, steps[0].request, e.outcome);
      if e.outcome.Returned? {
        var rest := RunSteps(steps[1..], execute, build, e.dir);
        RunStepsStopAtRaise(steps[1..], execute, build, e.dir);
        assert t.calls == [call] + rest.calls && t.abort == rest.abort;
        forall i | 0 <= i < |t.calls| && (i < |t.calls| - 1 || t.abort.None?)
          ensures t.calls[i].outcome.Returned?
        {
          if i > 0 {
            assert t.calls[i] == rest.calls[i - 1];
          }
        }
        if rest.calls != [] {
          assert t.calls[|t.calls| - 1] == rest.calls[|rest.calls| - 1];
        }
      }
    }
  }

  /** The log of the steps is the calls' logs in order. */
  lemma {:induction false} RunStepsLog(steps: seq<Step>, execute: (Dir, string) -> Effect,
                                       build: (Dir, string) -> Effect, d: Dir)
    ensures var t := RunSteps(steps, execute, build, d);
      t.log == LogOf(t.calls)
    decreases |steps|
  {
    if steps != [] {
      var t := RunSteps(steps, execute, build, d);
      var e := Perform(steps[0], execute, build, d);
      var call := Call(steps[0].stage, steps[0].request, e.outcome);
      if e.outcome.Raised? {
        assert t.calls == [call];
        assert LogOf([call]) == StageLog(call.stage, call.request, call.outcome) + LogOf([]);
      } else {
        var rest := RunSteps(steps[1..], execute, build, e.dir);
        RunStepsLog(steps[1..], execute, build, e.dir);
        assert t.calls == [call] + rest.calls;
        assert t.calls[1..] == rest.calls;
      }
    }
  }

  /** `ds` is the working directory before each call and after the last:
      each call's stage, handed its request on the directory the previous
      stage left, gave that call's outcome and the next directory. */
  predicate StagesChain(calls: seq<Call>, execute: (Dir, string) -> Effect, build: (Dir, string) -> Effect,
                        d: Dir, ds: seq<Dir>) {
    && |ds| == |calls| + 1
    && ds[0] == d
    && forall i :: 0 <= i < |calls| ==>
         Perform(Step(calls[i].stage, calls[i].request), execute, build, ds[i]) == Effect(calls[i].outcome, ds[i + 1])
  }

  /** The calls RunSteps records are what the stages did: starting on `d`,
      each stage ran on the directory the previous one left, and the
      directory at the end is the one the last stage left. */
  lemma {:induction false} RunStepsDirectories(steps: seq<Step>, execute: (Dir, string) -> Effect,
                                               build: (Dir, string) -> Effect, d: Dir) returns (ds: seq<Dir>)
    ensures var t := RunSteps(steps, execute, build, d);
      StagesChain(t.calls, execute, build, d, ds) && ds[|t.calls|] == t.dir
    decreases |steps|
  {
    var t := RunSteps(steps, execute, build, d);
    if steps == [] {
      ds := [d];
    } else {
      var e := Perform(steps[0], execute, build, d);
      var call := Call(steps[0].stage, steps[0].request, e.outcome);
      assert Step(call.stage, call.request) == steps[0];
      if e.outcome.Raised? {
        ds := [d, e.dir];
        assert t.calls == [call];
      } else {
        var rest := RunSteps(steps[1..], execute, build, e.dir);
        var tail := RunStepsDirectories(steps[1..], execute, build, e.dir);
        ds := [d] + tail;
        assert t.calls == [call] + rest.calls;
        forall i | 0 <= i < |t.calls|
          ensures Perform(Step(t.calls[i].stage, t.calls[i].request), execute, build, ds[i])
               == Effect(t.calls[i].outcome, ds[i + 1])
        {
          if i > 0 {
            assert t.calls[i] == rest.calls[i - 1];
            assert ds[i] == tail[i - 1] && ds[i + 1] == tail[i];
          }
        }
      }
    }
  }

  /** Which cleanups a complete run performs, in the order it performs them. */
  function CleanupsFor(args: Args): (actions: seq<CleanupAction>)
    ensures TemporaryData in actions <==> !args.keepTemporary
    ensures IntermediateBands in actions <==> !args.keepIntermediate
    ensures |actions| <= 2
    ensures |actions| == 2 ==> actions == [TemporaryData, IntermediateBands]
  {
    (if args.keepTemporary then [] else [TemporaryData])
    + (if args.keepIntermediate then [] else [IntermediateBands])
  }

  /** Applies a list of cleanups to the directory. */
  function ApplyCleanups(d: Dir, x: Cleanup.ExternalNames, actions: seq<CleanupAction>): (r: Dir)
    ensures forall n :: n in r <==>
              && n in d
              && (TemporaryData in actions ==> !Cleanup.IsTemporary(x, n))
              && (IntermediateBands in actions ==> !Cleanup.IsIntermediateBand(n))
    ensures forall n :: n in r ==> r[n] == d[n]
    decreases |actions|
  {
    if actions == [] then d
    else
      var d' := match actions[0]
        case TemporaryData => Cleanup.CleanupTemporaryData(d, x)
        case IntermediateBands => Cleanup.CleanupIntermediateBands(d);
      ApplyCleanups(d', x, actions[1..])
  }

  /** What `main` does once the stages are over: a raise is passed on
      with no cleanup; otherwise the chosen cleanups run and completion is
      logged. */
  function Finish(args: Args, x: Cleanup.ExternalNames, t: Trace): (r: Report)
    ensures r.calls == t.calls
    ensures r.status == Complete <==> t.abort.None?
    ensures t.abort.Some? ==> r.status == Aborted(t.abort.value) && r.cleanups == [] && r.dir == t.dir
    ensures t.abort.None? ==> r.cleanups == CleanupsFor(args) && r.dir == ApplyCleanups(t.dir, x, CleanupsFor(args))
    ensures r.log == [Info(BEGIN_MESSAGE)] + t.log + (if t.abort.None? then [Info(COMPLETE_MESSAGE)] else [])
    ensures TemporaryData in r.cleanups <==> t.abort.None? && !args.keepTemporary
    ensures IntermediateBands in r.cleanups <==> t.abort.None? && !args.keepIntermediate
    ensures forall n :: n in r.dir <==>
              && n in t.dir
              && (|| t.abort.Some?
                  || (&& (args.keepTemporary || !Cleanup.IsTemporary(x, n))
                      && (args.keepIntermediate || !Cleanup.IsIntermediateBand(n))))
    ensures forall n :: n in r.dir ==> r.dir[n] == t.dir[n]
  {
    if t.abort.Some? then Report(t.calls, [Info(BEGIN_MESSAGE)] + t.log, Aborted(t.abort.value), [], t.dir)
    else
      var actions := CleanupsFor(args);
      Report(t.calls, [Info(BEGIN_MESSAGE)] + t.log + [Info(COMPLETE_MESSAGE)], Complete,
             actions, ApplyCleanups(t.dir, x, actions))
  }

  /** The directories of a finished run, for any list of steps: the stages
      ran chained, an aborted run keeps the directory the last stage left,
      and a complete one applies the chosen cleanups to it. */
  lemma FinishDirectories(args: Args, x: Cleanup.ExternalNames, steps: seq<Step>,
                          execute: (Dir, string) -> Effect, build: (Dir, string) -> Effect, d: Dir)
    returns (ds: seq<Dir>)
    ensures var r := Finish(args, x, RunSteps(steps, execute, build, d));
      && StagesChain(r.calls, execute, build, d, ds)
      && (r.status != Complete ==> r.dir == ds[|r.calls|])
      && (r.status == Complete ==> r.dir == ApplyCleanups(ds[|r.calls|], x, CleanupsFor(args)))
  {
    ds := RunStepsDirectories(steps, execute, build, d);
  }

  /** `main`. `x` holds the names imported from the other modules of the
      program; `d` is the working directory when `main` starts. */
  function Run(args: Args, env: Config.Env, files: Config.ConfigFiles, x: Cleanup.ExternalNames,
               execute: (Dir, string) -> Effect, build: (Dir, string) -> Effect,
               d: Dir): (r: Report)
    ensures args.xml.None? ==> r == Report([], [], Aborted(MissingXml), [], d)
    ensures r.calls != [] || r.status == Complete ==>
              args.xml.Some? && Config.ResolveSettings(env, files).Success?
    ensures r.status == Complete ==> r.cleanups == CleanupsFor(args)
    ensures r.status != Complete ==> r.cleanups == []
    ensures args.xml.Some? ==> r.log != [] && r.log[0] == Info(BEGIN_MESSAGE)
    ensures r.status == Complete ==> r.log[|r.log| - 1] == Info(COMPLETE_MESSAGE)
  {
    if args.xml.None? then Report([], [], Aborted(MissingXml), [], d)
    else
      var settings := Config.ResolveSettings(env, files);
      if settings.Failure? then Report([], [Info(BEGIN_MESSAGE)], Aborted(ConfigAbort(settings.error)), [], d)
      else Finish(args, x, RunSteps(Plan(args.xml.value, settings.value, args.debug), execute, build, d))
  }

  predicate Resolves(env: Config.Env, files: Config.ConfigFiles) {
    Config.ResolveSettings(env, files).Success?
  }

  /** The stages of a run whose XML file is given and whose settings resolve. */
  function StagesTrace(args: Args, env: Config.Env, files: Config.ConfigFiles,
                       execute: (Dir, string) -> Effect, build: (Dir, string) -> Effect,
                       d: Dir): Trace
    requires args.xml.Some? && Resolves(env, files)
  {
    RunSteps(Plan(args.xml.value, Config.ResolveSettings(env, files).value, args.debug), execute, build, d)
  }

  lemma RunAfterStages(args: Args, env: Config.Env, files: Config.ConfigFiles, x: Cleanup.ExternalNames,
                       execute: (Dir, string) -> Effect, build: (Dir, string) -> Effect, d: Dir)
    requires args.xml.Some? && Resolves(env, files)
    ensures Run(args, env, files, x, execute, build, d) == Finish(args, x, StagesTrace(args, env, files, execute, build, d))
  {
  }

  /** Without `--xml` nothing is logged, nothing runs and nothing is removed. */
  lemma MissingXmlRunsNothing(args: Args, env: Config.Env, files: Config.ConfigFiles, x: Cleanup.ExternalNames,
                              execute: (Dir, string) -> Effect, build: (Dir, string) -> Effect, d: Dir)
    requires args.xml.None?
    ensures var r := Run(args, env, files, x, execute, build, d);
      r.calls == [] && r.log == [] && r.cleanups == [] && r.dir == d && r.status == Aborted(MissingXml)
  {
  }

  /** The configuration is resolved, all six options included, before the
      first stage: a stage runs only if `HOME` is set, the configuration file
      exists and every option is present. When any of that fails, the run
      stops after the opening log line with the configuration error. */
  lemma ConfigurationBeforeStages(args: Args, env: Config.Env, files: Config.ConfigFiles, x: Cleanup.ExternalNames,
                                  execute: (Dir, string) -> Effect, build: (Dir, string) -> Effect, d: Dir)
    ensures var r := Run(args, env, files, x, execute, build, d);
      r.calls != [] ==>
        && args.xml.Some?
        && "HOME" in env
        && Config.ConfigPathUnder(env["HOME"], Config.PROC_CFG_FILENAME) in files
        && forall i :: 0 <= i < |Config.REQUIRED_OPTIONS| ==>
             Config.HasOption(files[Config.ConfigPathUnder(env["HOME"], Config.PROC_CFG_FILENAME)],
                              Config.PROCESSING_SECTION, Config.REQUIRED_OPTIONS[i])
    ensures var r := Run(args, env, files, x, execute, build, d);
      args.xml.Some? && !Resolves(env, files) ==>
        && r.calls == [] && r.log == [Info(BEGIN_MESSAGE)] && r.dir == d
        && r.status == Aborted(ConfigAbort(Config.ResolveSettings(env, files).error))
    ensures var r := Run(args, env, files, x, execute, build, d);
      args.xml.Some? && "HOME" !in env ==> r.status == Aborted(ConfigAbort(Config.HomeNotInEnvironment))
    ensures var r := Run(args, env, files, x, execute, build, d);
      args.xml.Some? && "HOME" in env ==>
        var path := Config.ConfigPathUnder(env["HOME"], Config.PROC_CFG_FILENAME);
        && (path !in files ==> r.status == Aborted(ConfigAbort(Config.MissingConfigFile(path))))
        && (path in files && !Resolves(env, files) ==>
              exists i :: Config.FirstMissingAt(files[path], Config.REQUIRED_OPTIONS, i)
                && r.status == Aborted(ConfigAbort(
                     Config.Get(files[path], Config.PROCESSING_SECTION, Config.REQUIRED_OPTIONS[i]).error)))
  {
  }

  /** The calls of a finished run follow any list of steps. */
  lemma FinishFollowsSteps(args: Args, x: Cleanup.ExternalNames, steps: seq<Step>,
                           execute: (Dir, string) -> Effect, build: (Dir, string) -> Effect, d: Dir)
    ensures var r := Finish(args, x, RunSteps(steps, execute, build, d));
      && |r.calls| <= |steps|
      && (forall i :: 0 <= i < |r.calls| ==> r.calls[i].stage == steps[i].stage && r.calls[i].request == steps[i].request)
      && (r.status == Complete ==> |r.calls| == |steps|)
  {
    RunStepsFollowSteps(steps, execute, build, d);
  }

  /** The stages that ran are a prefix of the fixed order, each handed its
      own request; a complete run ran all seven. */
  lemma StagesRunInOrder(args: Args, env: Config.Env, files: Config.ConfigFiles, x: Cleanup.ExternalNames,
                         execute: (Dir, string) -> Effect, build: (Dir, string) -> Effect, d: Dir)
    requires args.xml.Some? && Resolves(env, files)
    ensures var r := Run(args, env, files, x, execute, build, d);
      && |r.calls| <= |STAGE_ORDER|
      && (forall i :: 0 <= i < |r.calls| ==>
            && r.calls[i].stage == STAGE_ORDER[i]
            && r.calls[i].request == Request(STAGE_ORDER[i], args.xml.value,
                                             Config.ResolveSettings(env, files).value, args.debug))
      && (r.status == Complete ==> |r.calls| == |STAGE_ORDER|)
  {
    var st := Config.ResolveSettings(env, files).value;
    var plan := Plan(args.xml.value, st, args.debug);
    RunAfterStages(args, env, files, x, execute, build, d);
    FinishFollowsSteps(args, x, plan, execute, build, d);
    PlanSteps(args.xml.value, st, args.debug);
  }

  /** The abort rule for any list of steps, once the stages are over. */
  lemma FinishAfterSteps(args: Args, x: Cleanup.ExternalNames, steps: seq<Step>,
                         execute: (Dir, string) -> Effect, build: (Dir, string) -> Effect, d: Dir)
    ensures var t := RunSteps(steps, execute, build, d);
      var r := Finish(args, x, t);
      && (r.status == Complete <==>
            |r.calls| == |steps| && forall i :: 0 <= i < |r.calls| ==> r.calls[i].outcome.Returned?)
      && (r.status != Complete ==>
            && r.calls != []
            && r.calls[|r.calls| - 1].outcome.Raised?
            && (forall i :: 0 <= i < |r.calls| - 1 ==> r.calls[i].outcome.Returned?)
            && r.status == Aborted(StageAbort(r.calls[|r.calls| - 1].stage, r.calls[|r.calls| - 1].outcome.message))
            && r.cleanups == []
            && r.dir == t.dir)
  {
    var t := RunSteps(steps, execute, build, d);
    RunStepsStopAtRaise(steps, execute, build, d);
    var r := Finish(args, x, t);
    if t.abort.Some? {
      var last := t.calls[|t.calls| - 1];
      assert last.outcome.Raised?;
      assert r.calls == t.calls;
    }
  }

  /** The abort rule and the directories together, for any list of steps. */
  lemma FinishAbortRule(args: Args, x: Cleanup.ExternalNames, steps: seq<Step>,
                        execute: (Dir, string) -> Effect, build: (Dir, string) -> Effect, d: Dir)
    returns (ds: seq<Dir>)
    ensures var r := Finish(args, x, RunSteps(steps, execute, build, d));
      && StagesChain(r.calls, execute, build, d, ds)
      && (r.status == Complete <==>
            |r.calls| == |steps| && forall i :: 0 <= i < |r.calls| ==> r.calls[i].outcome.Returned?)
      && (r.status != Complete ==>
            && r.calls != []
            && r.calls[|r.calls| - 1].outcome.Raised?
            && (forall i :: 0 <= i < |r.calls| - 1 ==> r.calls[i].outcome.Returned?)
            && r.status == Aborted(StageAbort(r.calls[|r.calls| - 1].stage, r.calls[|r.calls| - 1].outcome.message))
            && r.cleanups == []
            && r.dir == ds[|r.calls|])
  {
    FinishAfterSteps(args, x, steps, execute, build, d);
    ds := FinishDirectories(args, x, steps, execute, build, d);
  }

  /** A run completes exactly when every stage returned, and then it has
      run all seven. Otherwise the last stage that ran is the first that
      raised, every stage before it returned, its exception is the reason
      the run stopped, no cleanup ran and the directory is as that stage
      left it. `ds` are the directories the stages ran on, each the one the
      previous stage left, starting from the directory `main` started in. */
  lemma FirstRaiseAborts(args: Args, env: Config.Env, files: Config.ConfigFiles, x: Cleanup.ExternalNames,
                         execute: (Dir, string) -> Effect, build: (Dir, string) -> Effect, d: Dir)
    returns (ds: seq<Dir>)
    requires args.xml.Some? && Resolves(env, files)
    ensures var r := Run(args, env, files, x, execute, build, d);
      StagesChain(r.calls, execute, build, d, ds)
    ensures var r := Run(args, env, files, x, execute, build, d);
      r.status == Complete <==>
        |r.calls| == |STAGE_ORDER| && forall i :: 0 <= i < |r.calls| ==> r.calls[i].outcome.Returned?
    ensures var r := Run(args, env, files, x, execute, build, d);
      r.status != Complete ==>
        && r.calls != []
        && r.calls[|r.calls| - 1].outcome.Raised?
        && (forall i :: 0 <= i < |r.calls| - 1 ==> r.calls[i].outcome.Returned?)
        && r.status == Aborted(StageAbort(r.calls[|r.calls| - 1].stage, r.calls[|r.calls| - 1].outcome.message))
        && r.cleanups == []
        && r.dir == ds[|r.calls|]
  {
    var plan := Plan(args.xml.value, Config.ResolveSettings(env, files).value, args.debug);
    RunAfterStages(args, env, files, x, execute, build, d);
    ds := FinishAbortRule(args, x, plan, execute, build, d);
  }

  /** `--keep-temporary-data` and `--keep-intermediate-data` each switch a
      cleanup off; a cleanup runs only after a complete run, temporary data
      first. */
  lemma CleanupFlags(args: Args, env: Config.Env, files: Config.ConfigFiles, x: Cleanup.ExternalNames,
                     execute: (Dir, string) -> Effect, build: (Dir, string) -> Effect, d: Dir)
    ensures var r := Run(args, env, files, x, execute, build, d);
      && (TemporaryData in r.cleanups <==> r.status == Complete && !args.keepTemporary)
      && (IntermediateBands in r.cleanups <==> r.status == Complete && !args.keepIntermediate)
      && (|r.cleanups| == 2 ==> r.cleanups == [TemporaryData, IntermediateBands])
  {
    if args.xml.Some? && Resolves(env, files) {
      RunAfterStages(args, env, files, x, execute, build, d);
    }
  }

  /** After a complete run the directory is the one the last stage left,
      less the temporary entries unless they are kept and less the
      intermediate bands unless they are kept; what remains is untouched.
      `ds` are the directories the stages ran on, as in `FirstRaiseAborts`. */
  lemma CompleteRunDirectory(args: Args, env: Config.Env, files: Config.ConfigFiles, x: Cleanup.ExternalNames,
                             execute: (Dir, string) -> Effect, build: (Dir, string) -> Effect, d: Dir)
    returns (ds: seq<Dir>)
    requires args.xml.Some? && Resolves(env, files)
    ensures var r := Run(args, env, files, x, execute, build, d);
      StagesChain(r.calls, execute, build, d, ds)
    ensures var r := Run(args, env, files, x, execute, build, d);
      var left := ds[|r.calls|];
      r.status == Complete ==>
        && (forall n :: n in r.dir <==>
              && n in left
              && (args.keepTemporary || !Cleanup.IsTemporary(x, n))
              && (args.keepIntermediate || !Cleanup.IsIntermediateBand(n)))
        && (forall n :: n in r.dir ==> r.dir[n] == left[n])
  {
    var plan := Plan(args.xml.value, Config.ResolveSettings(env, files).value, args.debug);
    RunAfterStages(args, env, files, x, execute, build, d);
    ds := FinishDirectories(args, x, plan, execute, build, d);
  }

  /** The log of a run with an XML file: the opening line, each stage's
      entries in the order the stages ran, and the closing line only when
      the run completed. */
  lemma RunLog(args: Args, env: Config.Env, files: Config.ConfigFiles, x: Cleanup.ExternalNames,
               execute: (Dir, string) -> Effect, build: (Dir, string) -> Effect, d: Dir)
    requires args.xml.Some?
    ensures var r := Run(args, env, files, x, execute, build, d);
      r.log == [Info(BEGIN_MESSAGE)] + LogOf(r.calls) + (if r.status == Complete then [Info(COMPLETE_MESSAGE)] else [])
  {
    if Resolves(env, files) {
      var plan := Plan(args.xml.value, Config.ResolveSettings(env, files).value, args.debug);
      RunStepsLog(plan, execute, build, d);
      RunAfterStages(args, env, files, x, execute, build, d);
    }
  }
}

=== FILE: results.dfy ===
/** Failure-carrying wrappers used throughout the model: Python's raised
    exceptions become `Failure` values instead of preconditions. */
module Results {

  datatype Option<+T> = None | Some(value: T)

  datatype Result<+T, +E> = Success(value: T) | Failure(error: E) {
    predicate IsFailure() {
      Failure?
    }

    function PropagateFailure<U>(): Result<U, E>
      requires Failure?
    {
      Failure(error)
    }

    function Extract(): T
      requires Success?
    {
      value
    }
  }
}

=== FILE: shell_pattern.dfy ===
/** Shell-style filename patterns as `glob.glob` matches them: `*`, `?` and
    bracket expressions such as `[0-9]` or `[!a-z]` (the pattern notation of
    IEEE Std 1003.1-2017, XCU section 2.13.1, in the dialect of Python 2.7's
    `fnmatch.translate`). A pattern text is parsed into a sequence of
    elements; `Matches` is the matcher, and the lemmas below give it an
    independent, compositional reading. */
module ShellPattern {
  import opened Results
  import opened Text

  /** One member of a bracket expression: a single character or a range `lo-hi`. */
  datatype ClassItem = Single(c: char) | Range(lo: char, hi: char)

  datatype Elem =
    | Literal(c: char)                                // an ordinary character
    | AnyChar                                         // `?`
    | AnyString                                       // `*`
    | Bracket(negated: bool, items: seq<ClassItem>)   // `[...]` or `[!...]`

  type Pattern = seq<Elem>

  predicate ItemHas(item: ClassItem, ch: char) {
    match item
    case Single(c) => ch == c
    case Range(lo, hi) => lo <= ch <= hi
  }

  predicate ClassHas(items: seq<ClassItem>, ch: char) {
    exists i :: 0 <= i < |items| && ItemHas(items[i], ch)
  }

  /** Whether a single-character element accepts `ch`. */
  predicate OneMatches(e: Elem, ch: char)
    requires !e.AnyString?
  {
    match e
    case Literal(c) => ch == c
    case AnyChar => true
    case Bracket(negated, items) => ClassHas(items, ch) != negated
  }

  /** Whole-string match of `s` against `p`; `*` matches any run of
      characters, including the empty one. */
  predicate Matches(p: Pattern, s: string)
    decreases |p| + |s|
  {
    if p == [] then s == []
    else if p[0].AnyString? then Matches(p[1..], s) || (s != [] && Matches(p, s[1..]))
    else s != [] && OneMatches(p[0], s[0]) && Matches(p[1..], s[1..])
  }

  predicate StarFree(p: Pattern) {
    forall i :: 0 <= i < |p| ==> !p[i].AnyString?
  }

  /** The pattern that matches exactly the text `w`. */
  function Literals(w: string): (p: Pattern)
    ensures |p| == |w|
    ensures forall i :: 0 <= i < |w| ==> p[i] == Literal(w[i])
  {
    seq(|w|, i requires 0 <= i < |w| => Literal(w[i]))
  }

  /** `w` occurs in `s` starting at index `i`. */
  predicate OccursAt(s: string, w: string, i: int) {
    0 <= i && i + |w| <= |s| && s[i..i + |w|] == w
  }

  predicate Contains(s: string, w: string) {
    exists i :: 0 <= i <= |s| && OccursAt(s, w, i)
  }

  // ---------------------------------------------------------------------
  // Parsing pattern text (fnmatch.translate)

  /** Characters that are not pattern syntax outside a bracket expression. */
  predicate PlainChar(c: char) {
    c != '*' && c != '?' && c != '['
  }

  /** The members of a bracket expression; `a-b` is a range unless the `-`
      is the last character. */
  function ParseItems(t: string): seq<ClassItem>
    decreases |t|
  {
    if t == [] then []
    else if 3 <= |t| && t[1] == '-' then [Range(t[0], t[2])] + ParseItems(t[3..])
    else [Single(t[0])] + ParseItems(t[1..])
  }

  /** Parses the text following a `[`: an optional `!`, then a `]` that is
      taken literally when it comes first, then everything up to the next
      `]`. `None` when the bracket is never closed. */
  function ParseBracket(t: string): (r: Option<(Elem, string)>)
    ensures r.Some? ==> |r.value.1| < |t| && r.value.0.Bracket?
    ensures r.Some? ==> 0 < |t| && (r.value.0.negated <==> t[0] == '!')
  {
    var j0 := if 0 < |t| && t[0] == '!' then 1 else 0;
    var j1 := if j0 < |t| && t[j0] == ']' then j0 + 1 else j0;
    var k := IndexOf(t, ']', j1);
    if k == |t| then None
    else Some((Bracket(j0 == 1, ParseItems(t[j0..k])), t[k + 1..]))
  }

  /** Pattern text to pattern; an unclosed `[` stands for itself. */
  function Parse(s: string): Pattern
    decreases |s|
  {
    if s == [] then []
    else if s[0] == '*' then [AnyString] + Parse(s[1..])
    else if s[0] == '?' then [AnyChar] + Parse(s[1..])
    else if s[0] == '[' then
      var b := ParseBracket(s[1..]);
      if b.Some? then [b.value.0] + Parse(b.value.1) else [Literal('[')] + Parse(s[1..])
    else [Literal(s[0])] + Parse(s[1..])
  }

  // ---------------------------------------------------------------------
  // Rendering a pattern back to text

  function RenderItem(item: ClassItem): string {
    match item
    case Single(c) => [c]
    case Range(lo, hi) => [lo, '-', hi]
  }

  function RenderItems(items: seq<ClassItem>): string {
    if items == [] then "" else RenderItem(items[0]) + RenderItems(items[1..])
  }

  function RenderElem(e: Elem): string {
    match e
    case Literal(c) => [c]
    case AnyChar => "?"
    case AnyString => "*"
    case Bracket(negated, items) => "[" + (if negated then "!" else "") + RenderItems(items) + "]"
  }

  function Render(p: Pattern): string {
    if p == [] then "" else RenderElem(p[0]) + Render(p[1..])
  }

  predicate ItemChar(c: char) {
    c != ']' && c != '-'
  }

  predicate ItemWellFormed(item: ClassItem) {
    match item
    case Single(c) => ItemChar(c)
    case Range(lo, hi) => ItemChar(lo) && ItemChar(hi)
  }

  function FirstChar(item: ClassItem): char {
    match item
    case Single(c) => c
    case Range(lo, _) => lo
  }

  /** Elements whose text reads back as themselves: no syntax characters as
      literals, non-empty brackets without `]` or `-` as member characters,
      and no `!` opening a bracket that is not negated. */
  predicate ElemWellFormed(e: Elem) {
    match e
    case Literal(c) => PlainChar(c)
    case AnyChar => true
    case AnyString => true
    case Bracket(negated, items) =>
      && items != []
      && (forall i :: 0 <= i < |items| ==> ItemWellFormed(items[i]))
      && (!negated ==> FirstChar(items[0]) != '!')
  }

  predicate WellFormed(p: Pattern) {
    forall i :: 0 <= i < |p| ==> ElemWellFormed(p[i])
  }

  lemma {:induction false} RenderItemsShape(items: seq<ClassItem>)
    requires forall i :: 0 <= i < |items| ==> ItemWellFormed(items[i])
    ensures forall i :: 0 <= i < |RenderItems(items)| ==> RenderItems(items)[i] != ']'
    ensures items != [] ==> |RenderItems(items)| > 0 && RenderItems(items)[0] == FirstChar(items[0])
    ensures items != [] ==> RenderItems(items)[0] != '-'
  {
    if items != [] {
      RenderItemsShape(items[1..]);
      var r := RenderItems(items[1..]);
      assert RenderItems(items) == RenderItem(items[0]) + r;
      forall i | 0 <= i < |RenderItems(items)|
        ensures RenderItems(items)[i] != ']'
      {
        if i >= |RenderItem(items[0])| {
          assert RenderItems(items)[i] == r[i - |RenderItem(items[0])|];
        }
      }
    }
  }

  lemma {:induction false} ParseRenderItems(items: seq<ClassItem>)
    requires forall i :: 0 <= i < |items| ==> ItemWellFormed(items[i])
    ensures ParseItems(RenderItems(items)) == items
  {
    if items != [] {
      var rest := items[1..];
      RenderItemsShape(rest);
      ParseRenderItems(rest);
      var t := RenderItems(items);
      assert t == RenderItem(items[0]) + RenderItems(rest);
      match items[0]
      case Single(c) =>
        assert t[1..] == RenderItems(rest);
      case Range(lo, hi) =>
        assert t[3..] == RenderItems(rest);
    }
  }

  lemma ParseBracketRender(negated: bool, items: seq<ClassItem>, rest: string)
    requires ElemWellFormed(Bracket(negated, items))
    ensures ParseBracket((if negated then "!" else "") + RenderItems(items) + "]" + rest)
         == Some((Bracket(negated, items), rest))
  {
    var ri := RenderItems(items);
    var bang := if negated then "!" else "";
    var t := bang + ri + "]" + rest;
    RenderItemsShape(items);
    ParseRenderItems(items);
    assert "]" == [']'];
    Delimited(bang, ri, ']', rest);
    assert t[|bang|] == ri[0];
  }

  lemma ParseRenderElem(e: Elem, rest: string)
    requires ElemWellFormed(e)
    ensures Parse(RenderElem(e) + rest) == [e] + Parse(rest)
  {
    if e.Bracket? {
      ParseRenderBracket(e.negated, e.items, rest);
    } else {
      var s := RenderElem(e) + rest;
      assert s[0] == RenderElem(e)[0];
      assert s[1..] == rest;
    }
  }

  /** A `[` that opens a closed bracket expression parses as that expression. */
  lemma ParseOpenBracket(t: string)
    requires ParseBracket(t).Some?
    ensures Parse("[" + t) == [ParseBracket(t).value.0] + Parse(ParseBracket(t).value.1)
  {
    var s := "[" + t;
    assert s[0] == '[';
    assert s[1..] == t;
  }

  /** Inside a bracket expression, a `]` right after the `[` or `[!` is a
      member and the next `]` closes the expression. */
  lemma ParseBracketLeadingClose(bang: string, w: string, rest: string)
    requires bang == "" || bang == "!"
    requires forall i :: 0 <= i < |w| ==> w[i] != ']'
    ensures ParseBracket(bang + "]" + w + "]" + rest) == Some((Bracket(bang == "!", ParseItems("]" + w)), rest))
  {
    var open := bang + "]";
    var t := open + w + "]" + rest;
    var k := |open| + |w|;
    assert "]" == [']'];
    Delimited(open, w, ']', rest);
    assert t[|bang|] == ']';
    assert t[0] == '!' <==> bang == "!";
    var a, b := "]" + w, "]" + rest;
    AppendAssoc(bang, "]", w);
    AppendAssoc(bang + a, "]", rest);
    Slice(bang, a, b);
    ParseBracketAt(t, |bang|, k);
  }

  /** `ParseBracket` once the positions of its leading `]` and its closing
      `]` are known. */
  lemma ParseBracketAt(t: string, j0: nat, k: nat)
    requires j0 == (if 0 < |t| && t[0] == '!' then 1 else 0)
    requires j0 < |t| && t[j0] == ']'
    requires j0 + 1 <= |t| && IndexOf(t, ']', j0 + 1) == k < |t|
    ensures ParseBracket(t) == Some((Bracket(j0 == 1, ParseItems(t[j0..k])), t[k + 1..]))
  {
  }

  /** A `]` right after the opening `[` or `[!` is a member, not the end
      of the expression: `[]w]` is the class of `]` and the members of `w`. */
  lemma ParseLeadingClose(negated: bool, w: string, rest: string)
    requires forall i :: 0 <= i < |w| ==> w[i] != ']'
    ensures Parse("[" + (if negated then "!" else "") + "]" + w + "]" + rest)
         == [Bracket(negated, ParseItems("]" + w))] + Parse(rest)
  {
    var bang := if negated then "!" else "";
    var t := bang + "]" + w + "]" + rest;
    ParseBracketLeadingClose(bang, w, rest);
    ParseOpenBracket(t);
    AppendAssoc("[", bang, "]");
    AppendAssoc("[", bang + "]", w);
    AppendAssoc("[", bang + "]" + w, "]");
    AppendAssoc("[", bang + "]" + w + "]", rest);
  }

  /** The leading `]` is a member of the class unless a `-` after it makes
      it the low end of a range. */
  lemma LeadingCloseMember(w: string)
    ensures (w == [] || w[0] != '-') ==> ClassHas(ParseItems("]" + w), ']')
    ensures (2 <= |w| && w[0] == '-') ==> ParseItems("]" + w)[0] == Range(']', w[1])
  {
    var t := "]" + w;
    assert t[0] == ']';
    if 2 <= |w| && w[0] == '-' {
      assert t[1] == '-' && t[2] == w[1];
    } else if w == [] || w[0] != '-' {
      assert ItemHas(ParseItems(t)[0], ']');
    }
  }

  /** A `[` that no `]` follows is an ordinary character. */
  lemma ParseUnclosed(t: string)
    requires forall i :: 0 <= i < |t| ==> t[i] != ']'
    ensures Parse("[" + t) == [Literal('[')] + Parse(t)
  {
    var s := "[" + t;
    assert s[0] == '[';
    assert s[1..] == t;
    assert ParseBracket(t).None?;
  }

  /** `[]` and `[!]` are not bracket expressions: the `]` would be a member,
      and nothing closes the expression. */
  lemma EmptyBracketIsLiteral()
    ensures Parse("[]") == [Literal('['), Literal(']')]
    ensures Parse("[!]") == [Literal('['), Literal('!'), Literal(']')]
  {
    ParseUnclosed("!");
    assert ParseBracket("]").None?;
    assert ParseBracket("!]").None?;
    var s := "[]";
    assert s[0] == '[' && s[1..] == "]";
    var s2 := "[!]";
    assert s2[0] == '[' && s2[1..] == "!]";
    var s3 := "!]";
    assert s3[0] == '!' && s3[1..] == "]";
    var s4 := "]";
    assert s4[0] == ']' && s4[1..] == "";
  }

  lemma ParseRenderBracket(negated: bool, items: seq<ClassItem>, rest: string)
    requires ElemWellFormed(Bracket(negated, items))
    ensures Parse(RenderElem(Bracket(negated, items)) + rest) == [Bracket(negated, items)] + Parse(rest)
  {
    var bang := if negated then "!" else "";
    var ri := RenderItems(items);
    var inner := bang + ri + "]" + rest;
    assert RenderElem(Bracket(negated, items)) + rest == "[" + inner;
    ParseBracketRender(negated, items, rest);
    ParseOpenBracket(inner);
  }

  /** Round trip: a well-formed pattern's text parses back to the pattern. */
  lemma {:induction false} ParseRender(p: Pattern)
    requires WellFormed(p)
    ensures Parse(Render(p)) == p
  {
    if p != [] {
      ParseRender(p[1..]);
      ParseRenderElem(p[0], Render(p[1..]));
    }
  }

  lemma RenderCons(e: Elem, p: Pattern)
    ensures Render([e] + p) == RenderElem(e) + Render(p)
  {
    assert ([e] + p)[0] == e;
    assert ([e] + p)[1..] == p;
  }

  lemma {:induction false} RenderConcat(p: Pattern, q: Pattern)
    ensures Render(p + q) == Render(p) + Render(q)
  {
    if p != [] {
      var e, tail := p[0], p[1..];
      RenderConcat(tail, q);
      HeadTail(p);
      AppendAssoc([e], tail, q);
      RenderCons(e, tail + q);
      RenderCons(e, tail);
      AppendAssoc(RenderElem(e), Render(tail), Render(q));
    } else {
      assert p + q == q;
    }
  }

  /** A leading `*` parses to `AnyString`. */
  lemma ParseStar(rest: string)
    ensures Parse("*" + rest) == [AnyString] + Parse(rest)
  {
    var s := "*" + rest;
    assert s[0] == '*';
    assert s[1..] == rest;
  }

  lemma ParseEmpty()
    ensures Parse("") == []
  {
  }

  /** A leading plain character parses to its literal. */
  lemma ParseLiteral(c: char, rest: string)
    requires PlainChar(c)
    ensures Parse([c] + rest) == [Literal(c)] + Parse(rest)
  {
    var s := [c] + rest;
    assert s[0] == c;
    assert s[1..] == rest;
  }

  lemma LiteralsCons(w: string)
    requires w != []
    ensures Literals(w) == [Literal(w[0])] + Literals(w[1..])
  {
  }

  /** A run of plain characters parses to the literals it spells. */
  lemma {:induction false} ParsePlain(w: string, rest: string)
    requires forall i :: 0 <= i < |w| ==> PlainChar(w[i])
    ensures Parse(w + rest) == Literals(w) + Parse(rest)
  {
    if w != [] {
      var c, tail := w[0], w[1..];
      ParsePlain(tail, rest);
      HeadTail(w);
      AppendAssoc([c], tail, rest);
      ParseLiteral(c, tail + rest);
      LiteralsCons(w);
      AppendAssoc([Literal(c)], Literals(tail), Parse(rest));
    } else {
      assert w + rest == rest && Literals(w) == [];
    }
  }

  // ---------------------------------------------------------------------
  // What a pattern matches

  /** A pattern without `*` matches exactly the strings of its own length
      whose characters each satisfy the element at the same position. */
  lemma {:induction false} StarFreeMatch(p: Pattern, s: string)
    requires StarFree(p)
    ensures Matches(p, s) <==> |s| == |p| && forall i :: 0 <= i < |p| ==> OneMatches(p[i], s[i])
  {
    if p != [] && s != [] {
      StarFreeMatch(p[1..], s[1..]);
      if |s| == |p| && OneMatches(p[0], s[0]) && Matches(p[1..], s[1..]) {
        forall i | 0 <= i < |p|
          ensures OneMatches(p[i], s[i])
        {
          if i > 0 {
            assert p[i] == p[1..][i - 1] && s[i] == s[1..][i - 1];
          }
        }
      }
      if |s| == |p| && (forall i :: 0 <= i < |p| ==> OneMatches(p[i], s[i])) {
        forall i | 0 <= i < |p| - 1
          ensures OneMatches(p[1..][i], s[1..][i])
        {
          assert p[1..][i] == p[i + 1] && s[1..][i] == s[i + 1];
        }
      }
    }
  }

  /** `?` matches exactly the strings of one character, whatever it is. */
  lemma AnyCharMatch(s: string)
    ensures Matches([AnyChar], s) <==> |s| == 1
  {
    StarFreeMatch([AnyChar], s);
  }

  /** A leading `?` parses to `AnyChar`. */
  lemma ParseQuestion(rest: string)
    ensures Parse("?" + rest) == [AnyChar] + Parse(rest)
  {
    var s := "?" + rest;
    assert s[0] == '?';
    assert s[1..] == rest;
  }

  /** `*` alone matches every string. */
  lemma {:induction false} StarMatchesAll(s: string)
    ensures Matches([AnyString], s)
  {
    if s != [] {
      StarMatchesAll(s[1..]);
    }
  }

  /** A literal pattern matches only its own text. */
  lemma LiteralsMatch(w: string, s: string)
    ensures Matches(Literals(w), s) <==> s == w
  {
    StarFreeMatch(Literals(w), s);
    if |s| == |w| && forall i :: 0 <= i < |w| ==> OneMatches(Literals(w)[i], s[i]) {
      assert forall i :: 0 <= i < |w| ==> s[i] == w[i];
    }
  }

  /** Concatenated patterns match exactly the concatenations of their matches. */
  lemma {:induction false} ConcatMatch(p: Pattern, q: Pattern, s: string)
    ensures Matches(p + q, s) <==> exists k :: 0 <= k <= |s| && Matches(p, s[..k]) && Matches(q, s[k..])
    decreases |p| + |s|, 1
  {
    if p == [] {
      assert p + q == q;
      if Matches(q, s) {
        assert s[..0] == [] && s[0..] == s;
      }
    } else if p[0].AnyString? {
      ConcatMatchStar(p, q, s);
    } else {
      ConcatMatchOne(p, q, s);
    }
  }

  /** `ConcatMatch` when `p` starts with `*`. */
  lemma {:induction false} ConcatMatchStar(p: Pattern, q: Pattern, s: string)
    requires p != [] && p[0].AnyString?
    ensures Matches(p + q, s) <==> exists k :: 0 <= k <= |s| && Matches(p, s[..k]) && Matches(q, s[k..])
    decreases |p| + |s|, 0
  {
    assert (p + q)[0] == p[0];
    assert (p + q)[1..] == p[1..] + q;
    ConcatMatch(p[1..], q, s);
    if s != [] {
      ConcatMatch(p, q, s[1..]);
    }
    if Matches(p + q, s) {
      if Matches(p[1..] + q, s) {
        var k :| 0 <= k <= |s| && Matches(p[1..], s[..k]) && Matches(q, s[k..]);
        assert Matches(p, s[..k]);
      } else {
        var k :| 0 <= k <= |s[1..]| && Matches(p, s[1..][..k]) && Matches(q, s[1..][k..]);
        assert s[..k + 1][1..] == s[1..][..k];
        assert s[k + 1..] == s[1..][k..];
        assert Matches(p, s[..k + 1]);
      }
    }
    if exists k :: 0 <= k <= |s| && Matches(p, s[..k]) && Matches(q, s[k..]) {
      var k :| 0 <= k <= |s| && Matches(p, s[..k]) && Matches(q, s[k..]);
      if !Matches(p[1..], s[..k]) {
        assert k > 0;
        assert s[..k][1..] == s[1..][..k - 1];
        assert s[k..] == s[1..][k - 1..];
      }
    }
  }

  /** `ConcatMatch` when `p` starts with an element that matches one character. */
  lemma {:induction false} ConcatMatchOne(p: Pattern, q: Pattern, s: string)
    requires p != [] && !p[0].AnyString?
    ensures Matches(p + q, s) <==> exists k :: 0 <= k <= |s| && Matches(p, s[..k]) && Matches(q, s[k..])
    decreases |p| + |s|, 0
  {
    assert (p + q)[0] == p[0];
    assert (p + q)[1..] == p[1..] + q;
    if s != [] {
      ConcatMatch(p[1..], q, s[1..]);
      if Matches(p + q, s) {
        ConcatOneSplit(p, q, s);
      }
      if exists k :: 0 <= k <= |s| && Matches(p, s[..k]) && Matches(q, s[k..]) {
        ConcatOneJoin(p, q, s);
      }
    }
  }

  /** A match of `p + q` splits after a match of `p`, given the split for
      the rest of `p` on the rest of `s`. */
  lemma ConcatOneSplit(p: Pattern, q: Pattern, s: string)
    requires p != [] && !p[0].AnyString? && s != []
    requires Matches(p[1..] + q, s[1..]) ==>
               exists k :: 0 <= k <= |s[1..]| && Matches(p[1..], s[1..][..k]) && Matches(q, s[1..][k..])
    requires OneMatches(p[0], s[0]) && Matches(p[1..] + q, s[1..])
    ensures exists k :: 0 <= k <= |s| && Matches(p, s[..k]) && Matches(q, s[k..])
  {
    var k :| 0 <= k <= |s[1..]| && Matches(p[1..], s[1..][..k]) && Matches(q, s[1..][k..]);
    assert s[..k + 1][1..] == s[1..][..k];
    assert s[k + 1..] == s[1..][k..];
    assert Matches(p, s[..k + 1]);
  }

  /** A match of `p` followed by a match of `q` is a match of `p + q`,
      given the same for the rest of `p` on the rest of `s`. */
  lemma ConcatOneJoin(p: Pattern, q: Pattern, s: string)
    requires p != [] && !p[0].AnyString? && s != []
    requires (exists k :: 0 <= k <= |s[1..]| && Matches(p[1..], s[1..][..k]) && Matches(q, s[1..][k..])) ==>
               Matches(p[1..] + q, s[1..])
    requires exists k :: 0 <= k <= |s| && Matches(p, s[..k]) && Matches(q, s[k..])
    ensures OneMatches(p[0], s[0]) && Matches(p[1..] + q, s[1..])
  {
    var k :| 0 <= k <= |s| && Matches(p, s[..k]) && Matches(q, s[k..]);
    assert k > 0;
    assert s[..k][1..] == s[1..][..k - 1];
    assert s[k..] == s[1..][k - 1..];
  }

  /** `*` followed by a literal text matches exactly the strings ending in it. */
  lemma SuffixMatch(w: string, s: string)
    ensures Matches([AnyString] + Literals(w), s) <==> EndsWith(s, w)
  {
    ConcatMatch([AnyString], Literals(w), s);
    if EndsWith(s, w) {
      var k := |s| - |w|;
      StarMatchesAll(s[..k]);
      LiteralsMatch(w, s[k..]);
    }
    if Matches([AnyString] + Literals(w), s) {
      var k :| 0 <= k <= |s| && Matches([AnyString], s[..k]) && Matches(Literals(w), s[k..]);
      LiteralsMatch(w, s[k..]);
    }
  }

  /** A literal text between two `*` matches exactly the strings containing it. */
  lemma InfixMatch(w: string, s: string)
    ensures Matches([AnyString] + Literals(w) + [AnyString], s) <==> Contains(s, w)
  {
    ConcatMatch([AnyString] + Literals(w), [AnyString], s);
    if Contains(s, w) {
      var i :| 0 <= i <= |s| && OccursAt(s, w, i);
      var k := i + |w|;
      assert s[..k][|s[..k]| - |w|..] == s[i..i + |w|];
      SuffixMatch(w, s[..k]);
      StarMatchesAll(s[k..]);
    }
    if Matches([AnyString] + Literals(w) + [AnyString], s) {
      var k :| 0 <= k <= |s| && Matches([AnyString] + Literals(w), s[..k]) && Matches([AnyString], s[k..]);
      SuffixMatch(w, s[..k]);
      var i := k - |w|;
      assert s[i..i + |w|] == s[..k][|s[..k]| - |w|..];
      assert OccursAt(s, w, i);
    }
  }
}

=== FILE: stage_commands.dfy ===
/** The per-stage command builders of
    not-validated-prototype_lst/scripts/lst_generate_products.py: the five
    stage wrappers and the inline atmospheric-parameters command of `main`.
    Each fixes the program name and the order of its flags; `--debug` is
    appended when debugging. */
module StageCommands {
  import opened Commands

  const GRID_POINTS_PROGRAM := "lst_determine_grid_points.py"
  const NARR_PROGRAM := "lst_extract_auxiliary_narr_data.py"
  const MODTRAN_INPUT_PROGRAM := "lst_build_modtran_input.py"
  const EMISSIVITY_PROGRAM := "estimate_landsat_emissivity.py"
  const RUN_MODTRAN_PROGRAM := "lst_run_modtran.py"
  const ATMOSPHERIC_PARAMETERS_PROGRAM := "lst_atmospheric_parameters"

  const XML_FLAG := "--xml"

  function DebugSuffix(debug: bool): string {
    if debug then " --debug" else ""
  }

  lemma OneFlagText(f1: Flag)
    ensures FlagText([f1]) == FlagPart(f1)
  {
    assert [f1][1..] == [];
  }

  lemma TwoFlagText(f1: Flag, f2: Flag)
    ensures FlagText([f1, f2]) == FlagPart(f1) + FlagPart(f2)
  {
    assert [f1, f2][1..] == [f2];
    OneFlagText(f2);
  }

  lemma ThreeFlagText(f1: Flag, f2: Flag, f3: Flag)
    ensures FlagText([f1, f2, f3]) == FlagPart(f1) + FlagPart(f2) + FlagPart(f3)
  {
    assert [f1, f2, f3][1..] == [f2, f3];
    TwoFlagText(f2, f3);
  }

  /** A command with one, two or three flags, as tokens and as a line. */
  lemma OneFlagCommand(p: string, f1: Flag, debug: bool)
    ensures Tokens(Command(p, [f1], debug)) == [p, f1.name, f1.value] + DebugTail(debug)
    ensures CommandLine(Command(p, [f1], debug)) == p + FlagPart(f1) + DebugSuffix(debug)
  {
    assert [f1][1..] == [];
    assert FlagTokens([f1]) == [f1.name, f1.value];
    CommandLineShape(Command(p, [f1], debug));
    OneFlagText(f1);
  }

  lemma TwoFlagCommand(p: string, f1: Flag, f2: Flag, debug: bool)
    ensures Tokens(Command(p, [f1, f2], debug)) == [p, f1.name, f1.value, f2.name, f2.value] + DebugTail(debug)
    ensures CommandLine(Command(p, [f1, f2], debug)) == p + FlagPart(f1) + FlagPart(f2) + DebugSuffix(debug)
  {
    assert [f1, f2][1..] == [f2];
    assert [f2][1..] == [];
    assert FlagTokens([f1, f2]) == [f1.name, f1.value, f2.name, f2.value];
    CommandLineShape(Command(p, [f1, f2], debug));
    TwoFlagText(f1, f2);
  }

  lemma ThreeFlagCommand(p: string, f1: Flag, f2: Flag, f3: Flag, debug: bool)
    ensures Tokens(Command(p, [f1, f2, f3], debug))
         == [p, f1.name, f1.value, f2.name, f2.value, f3.name, f3.value] + DebugTail(debug)
    ensures CommandLine(Command(p, [f1, f2, f3], debug))
         == p + FlagPart(f1) + FlagPart(f2) + FlagPart(f3) + DebugSuffix(debug)
  {
    assert [f1, f2, f3][1..] == [f2, f3];
    assert [f2, f3][1..] == [f3];
    assert [f3][1..] == [];
    assert FlagTokens([f3]) == [f3.name, f3.value];
    assert FlagTokens([f2, f3]) == [f2.name, f2.value, f3.name, f3.value];
    assert FlagTokens([f1, f2, f3]) == [f1.name, f1.value, f2.name, f2.value, f3.name, f3.value];
    CommandLineShape(Command(p, [f1, f2, f3], debug));
    ThreeFlagText(f1, f2, f3);
  }

  /** `determine_grid_points`. */
  function DetermineGridPoints(xml: string, dataPath: string, debug: bool): (c: Command)
    ensures Tokens(c) == [GRID_POINTS_PROGRAM, XML_FLAG, xml, "--data_path", dataPath] + DebugTail(debug)
    ensures CommandLine(c) == GRID_POINTS_PROGRAM + FlagPart(Flag(XML_FLAG, xml)) + FlagPart(Flag("--data_path", dataPath)) + DebugSuffix(debug)
  {
    var c := Command(GRID_POINTS_PROGRAM, [Flag(XML_FLAG, xml), Flag("--data_path", dataPath)], debug);
    TwoFlagCommand(c.program, c.flags[0], c.flags[1], debug);
    c
  }

  /** `extract_auxiliary_narr_data`. */
  function ExtractAuxiliaryNarrData(xml: string, auxPath: string, debug: bool): (c: Command)
    ensures Tokens(c) == [NARR_PROGRAM, XML_FLAG, xml, "--aux_path", auxPath] + DebugTail(debug)
    ensures CommandLine(c) == NARR_PROGRAM + FlagPart(Flag(XML_FLAG, xml)) + FlagPart(Flag("--aux_path", auxPath)) + DebugSuffix(debug)
  {
    var c := Command(NARR_PROGRAM, [Flag(XML_FLAG, xml), Flag("--aux_path", auxPath)], debug);
    TwoFlagCommand(c.program, c.flags[0], c.flags[1], debug);
    c
  }

  /** `build_modtran_input`. */
  function BuildModtranInput(xml: string, dataPath: string, debug: bool): (c: Command)
    ensures Tokens(c) == [MODTRAN_INPUT_PROGRAM, XML_FLAG, xml, "--data_path", dataPath] + DebugTail(debug)
    ensures CommandLine(c) == MODTRAN_INPUT_PROGRAM + FlagPart(Flag(XML_FLAG, xml)) + FlagPart(Flag("--data_path", dataPath)) + DebugSuffix(debug)
  {
    var c := Command(MODTRAN_INPUT_PROGRAM, [Flag(XML_FLAG, xml), Flag("--data_path", dataPath)], debug);
    TwoFlagCommand(c.program, c.flags[0], c.flags[1], debug);
    c
  }

  /** `generate_emissivity_products`: three flags. */
  function GenerateEmissivityProducts(xml: string, serverName: string, serverPath: string, debug: bool): (c: Command)
    ensures Tokens(c) == [EMISSIVITY_PROGRAM, XML_FLAG, xml,
                          "--aster-ged-server-name", serverName,
                          "--aster-ged-server-path", serverPath] + DebugTail(debug)
    ensures CommandLine(c) == EMISSIVITY_PROGRAM + FlagPart(Flag(XML_FLAG, xml))
                              + FlagPart(Flag("--aster-ged-server-name", serverName))
                              + FlagPart(Flag("--aster-ged-server-path", serverPath)) + DebugSuffix(debug)
  {
    var c := Command(EMISSIVITY_PROGRAM,
                     [Flag(XML_FLAG, xml),
                      Flag("--aster-ged-server-name", serverName),
                      Flag("--aster-ged-server-path", serverPath)], debug);
    ThreeFlagCommand(c.program, c.flags[0], c.flags[1], c.flags[2], debug);
    c
  }

  /** `run_modtran`: the only stage without `--xml`. */
  function RunModtran(modtranDataPath: string, processCount: string, debug: bool): (c: Command)
    ensures Tokens(c) == [RUN_MODTRAN_PROGRAM, "--modtran_data_path", modtranDataPath,
                          "--process_count", processCount] + DebugTail(debug)
    ensures CommandLine(c) == RUN_MODTRAN_PROGRAM + FlagPart(Flag("--modtran_data_path", modtranDataPath))
                              + FlagPart(Flag("--process_count", processCount)) + DebugSuffix(debug)
  {
    var c := Command(RUN_MODTRAN_PROGRAM, [Flag("--modtran_data_path", modtranDataPath),
                                           Flag("--process_count", processCount)], debug);
    TwoFlagCommand(c.program, c.flags[0], c.flags[1], debug);
    c
  }

  /** The command `main` builds inline for the atmospheric parameters. */
  function AtmosphericParameters(xml: string, debug: bool): (c: Command)
    ensures Tokens(c) == [ATMOSPHERIC_PARAMETERS_PROGRAM, XML_FLAG, xml] + DebugTail(debug)
    ensures CommandLine(c) == ATMOSPHERIC_PARAMETERS_PROGRAM + FlagPart(Flag(XML_FLAG, xml)) + DebugSuffix(debug)
  {
    var c := Command(ATMOSPHERIC_PARAMETERS_PROGRAM, [Flag(XML_FLAG, xml)], debug);
    OneFlagCommand(c.program, c.flags[0], debug);
    c
  }
}

=== FILE: text.dfy ===
/** Sequence helpers shared by the other modules: prefix and suffix tests,
    scanning a string for a character, and regrouping a concatenation. */
module Text {

  predicate StartsWith(s: string, prefix: string) {
    |prefix| <= |s| && s[..|prefix|] == prefix
  }

  predicate EndsWith(s: string, suffix: string) {
    |suffix| <= |s| && s[|s| - |suffix|..] == suffix
  }

  /** Index of the first `c` in `s` at or after `j`, or `|s|` when there is none. */
  function IndexOf(s: string, c: char, j: nat): (k: nat)
    requires j <= |s|
    ensures j <= k <= |s|
    ensures k < |s| ==> s[k] == c
    ensures forall i :: j <= i < k ==> s[i] != c
    decreases |s| - j
  {
    if j == |s| || s[j] == c then j else IndexOf(s, c, j + 1)
  }

  /** A `c` at `k` with none between `j` and `k` is the one found. */
  lemma {:induction false} IndexOfAt(s: string, c: char, j: nat, k: nat)
    requires j <= k < |s| && s[k] == c
    requires forall i :: j <= i < k ==> s[i] != c
    ensures IndexOf(s, c, j) == k
    decreases k - j
  {
    if j < k {
      IndexOfAt(s, c, j + 1, k);
    }
  }

  /** In `p + a + [c] + b` with no `c` inside `a`, the search from the end
      of `p` stops right after `a`, and the pieces on either side of that
      `c` are `a` and `b`. */
  lemma Delimited(p: string, a: string, c: char, b: string)
    requires forall i :: 0 <= i < |a| ==> a[i] != c
    ensures IndexOf(p + a + [c] + b, c, |p|) == |p| + |a|
    ensures (p + a + [c] + b)[|p|..|p| + |a|] == a
    ensures (p + a + [c] + b)[|p| + |a| + 1..] == b
  {
    var t := p + a + [c] + b;
    forall i | |p| <= i < |p| + |a|
      ensures t[i] != c
    {
      assert t[i] == a[i - |p|];
    }
    IndexOfAt(t, c, |p|, |p| + |a|);
  }

  /** The middle piece of a three-part concatenation, read back by slicing. */
  lemma Slice<T>(p: seq<T>, a: seq<T>, b: seq<T>)
    ensures (p + a + b)[|p|..|p| + |a|] == a
  {
  }

  /** Concatenation regrouped, stated once so that proofs about long
      concatenations need not rediscover it. */
  lemma AppendAssoc<T>(a: seq<T>, b: seq<T>, c: seq<T>)
    ensures a + (b + c) == (a + b) + c
  {
  }

  /** A non-empty sequence is its head followed by its tail. */
  lemma HeadTail<T>(s: seq<T>)
    requires s != []
    ensures s == [s[0]] + s[1..]
  {
  }
}

=== FILE: work_dir.dfy ===
/** The process's current working directory as the cleanup code sees it: a
    finite set of entries, each a name with a kind. Names are unique, so the
    directory is a map from name to kind. */
module WorkDir {
  import opened ShellPattern

  datatype Kind = File | Directory

  type Dir = map<string, Kind>

  /** `for name in names: if os.path.exists(name): remove(name)`, removing
      each listed entry that is present and skipping each absent one. A
      directory goes as a whole. */
  function RemoveExisting(d: Dir, names: seq<string>): (r: Dir)
    ensures forall n :: n in r <==> n in d && n !in names
    ensures forall n :: n in r ==> r[n] == d[n]
    decreases |names|
  {
    if names == [] then d
    else
      var d' := if names[0] in d then d - {names[0]} else d;
      RemoveExisting(d', names[1..])
  }

  /** `glob.glob(pattern)` for a pattern without a directory part: the names
      in the directory that the pattern matches. */
  function Glob(d: Dir, pattern: string): (hits: set<string>)
    ensures forall n :: n in hits <==> n in d && Matches(Parse(pattern), n)
  {
    set n | n in d && Matches(Parse(pattern), n)
  }

  /** `for name in glob.glob(pattern): remove(name)`. */
  function RemoveMatching(d: Dir, pattern: string): (r: Dir)
    ensures forall n :: n in r <==> n in d && !Matches(Parse(pattern), n)
    ensures forall n :: n in r ==> r[n] == d[n]
  {
    d - Glob(d, pattern)
  }

  /** The five-pattern loop of the band cleanup: every pattern in turn, every
      hit of it removed. */
  function RemoveMatchingEach(d: Dir, patterns: seq<string>): (r: Dir)
    ensures forall n :: n in r <==> n in d && forall i :: 0 <= i < |patterns| ==> !Matches(Parse(patterns[i]), n)
    ensures forall n :: n in r ==> r[n] == d[n]
    decreases |patterns|
  {
    if patterns == [] then d
    else RemoveMatchingEach(RemoveMatching(d, patterns[0]), patterns[1..])
  }

  /** Two directories carved out of the same one, with the same names left,
      are the same directory. */
  lemma SameSurvivors(a: Dir, b: Dir, d: Dir)
    requires forall n :: n in a <==> n in b
    requires forall n :: n in a ==> n in d && a[n] == d[n]
    requires forall n :: n in b ==> n in d && b[n] == d[n]
    ensures a == b
  {
    assert a.Keys == b.Keys;
  }
}
